=== FILE: README.md ===
# Listing aggregator core, modelled in Dafny

The repository collects real-estate listings from several Czech property
sites. It scrapes two of them directly as HTML. For all four it also runs
Apify scraping actors. It stores the listings in a Postgres table that is
unique by url, and serves them back a page at a time. This project models
the four pieces of sequential logic inside that orchestration, and proves
properties of them:

- **Listing store** (`listing_store.dfy`, module `ListingStore`). The
  `listings` table is an abstract store: a sequence of rows in insertion
  order, the next id of the `BIGSERIAL` sequence, and a monotone clock.
  It covers:
  - `upsertOne`: `INSERT … ON CONFLICT (url) DO UPDATE` with the `COALESCE`
    merge. The `xmax = 0` trick becomes "the url was absent before".
  - `upsertListingsReturnNew`: a fold over a batch. It skips items the
    database rejects and returns the ids of genuine insertions.
  - The three readers: `fetchListingsPaged`, `countListings` and
    `fetchListingById`, including their legacy-column fallbacks.
- **Apify record mapper** (`apify_mapper.dfy`, module `ApifyMapper`). It
  models `mapToUnified` and its inner `pick`. The `||` and `??` chains are
  proved equal to the independent reference scans `FirstTruthy` and
  `FirstPresent`.
- **Scraper string helpers** (`normalize.dfy`, module `Normalize`):
  - the `env` fallback;
  - the CSV url lists;
  - making a relative href absolute;
  - the protocol-relative image fix-up;
  - the "emit only with a url" loop of both HTML scrapers, over card
    fields that are already extracted.
- **Scrape-all aggregation** (`scrape_all.dfy`, module `ScrapeAll`). It
  folds the settled outcomes of the four actor runs into the `{ ok, total,
  bySource }` response.

Shared pieces:
- `wrappers.dfy`: `Option`, `Result`, and SQL `COALESCE`.
- `seqs.dfy`: order-preserving `Filter` and `Map` with their algebra.
- `js_text.dfy`: JavaScript `trim`, `startsWith`, `split`, `join`, and
  `String(n)` for integers.
- `sources.dfy`: the four source keys.

Parameters stand in for I/O and hidden state:
- The process environment is a `map<string, string>`.
- The time that passes before each database statement is a natural number
  (`elapsed`).
- Whether the database rejects a statement is a flag on each batch item
  (`fails`).
- The result of each actor run is an `Outcome`.

Facts about the code that the model keeps as written:
- A non-null empty string does overwrite a stored column on conflict,
  because `COALESCE` only skips NULL.
- Urls are not canonicalised. There is no query or fragment stripping. The
  only change to a scraped href is that one starting with `/` gets the site
  origin prefixed. That includes a `//host/...` href. A url taken from an
  Apify record is trimmed.
- Scraped text is trimmed, not whitespace-collapsed.
- A price is not parsed into a number.
- There is no fallback anchor scan.
- A present but empty `priceText` blocks the `price`/`cena` fallback
  (`??`). By contrast, a blank-but-non-empty `url` is chosen before
  trimming and yields `''`.

## Model

| member | source | states |
|---|---|---|
| Wrappers.Coalesce | src/lib/db.ts:72-78 | SQL `COALESCE(new, old)`: a present new value wins, and a NULL new value keeps the old one |
| Sources.KeyInjective | src/lib/db.ts:19 | the four source tags have pairwise distinct string keys |
| JsText.Trim | src/lib/apify.ts:92-96 | `trim` leaves no whitespace at either end and never lengthens the string |
| JsText.TrimIsSlice | src/lib/apify.ts:92-96 | `trim` removes only whitespace and only at the two ends: the result is a contiguous slice of the input |
| JsText.TrimIdempotent | src/lib/normalize.ts:15-16 | trimming an already-trimmed value changes nothing |
| JsText.TrimEmptyIff | src/lib/normalize.ts:15-16 | `trim` gives `''` exactly when the string is all whitespace |
| JsText.Split | src/lib/normalize.ts:16 | `split(',')` yields at least one piece, and no piece contains the separator |
| JsText.JoinSplit | src/lib/normalize.ts:16 | joining the pieces of a split with the same separator gives back the input |
| JsText.SplitJoin | src/lib/normalize.ts:16 | splitting a join of separator-free pieces gives back the pieces |
| JsText.SplitFree | src/lib/normalize.ts:16 | a string without the separator splits into itself alone |
| JsText.IntToString | src/lib/apify.ts:95 | `String(n)` is non-empty and starts with `-` exactly when `n` is negative |
| JsText.DigitsRoundTrip | src/lib/apify.ts:95 | the decimal digits of a natural number read back as that number |
| JsText.IntToStringRoundTrip | src/lib/apify.ts:95 | `String(n)` is a numeral (optional minus sign, then digits) whose value is `n` |
| Seqs.Filter | src/app/api/apify/scrape-all/route.ts:17 | `filter` keeps exactly the elements satisfying the predicate, drops nothing else, and never lengthens the sequence |
| Seqs.FilterAppend | src/app/api/apify/scrape-all/route.ts:17 | filtering preserves order: the filter of a concatenation is the concatenation of the filters |
| Seqs.FilterLength | src/app/api/apify/scrape-all/route.ts:17-18 | the filtered length is the number of elements satisfying the predicate |
| Seqs.MapAppend | src/app/api/apify/scrape-all/route.ts:17 | `map` distributes over concatenation |
| Seqs.FilterMapKeeps | src/app/api/apify/scrape-all/route.ts:17 | after `map` then `filter`, an element's image is kept exactly when it satisfies the predicate |
| Seqs.FilterMapOrigin | src/app/api/apify/scrape-all/route.ts:17 | everything `map` then `filter` keeps is the image of some input element |
| ListingStore.EmptyStore | src/lib/db.ts:32-42 | a fresh table satisfies the table invariant (urls unique, ids distinct and below the sequence, stamps ordered) and holds no url |
| ListingStore.IndexOfUrl | src/lib/db.ts:40 | the unique-url lookup finds a row with that url, or reports that no row has it |
| ListingStore.UpsertOne | src/lib/db.ts:57-86 | keeps the table invariant. It reports `inserted` exactly when the url was absent. An insert appends one row built from the item, with `price = price_text`, the next id and the statement time as `first_seen`. An update changes no row count, id, url or `first_seen`, overwrites `source` and `title`, COALESCEs every nullable column, and sets the legacy `price` to `COALESCE(new price_text, old price)`. Every other row is unchanged |
| ListingStore.RepeatUpsertChangesNoRow | src/lib/db.ts:67-85 | upserting the same item twice: the second is an update returning the same id and leaves the rows as the first left them |
| ListingStore.UpsertKeepsLegacyPriceInStep | src/lib/db.ts:68-78 | when the row under the url had `price = price_text`, the upsert keeps that equality |
| ListingStore.UpsertBatch | src/lib/db.ts:98-106 | the batch fold keeps the table invariant |
| ListingStore.UpsertListingsReturnNew | src/lib/db.ts:88-107 | the source's loop, with its early `[]` for an empty batch, computes exactly the recursive batch fold `UpsertBatch` that the lemmas below are about |
| ListingStore.BatchKeepsExistingRows | src/lib/db.ts:70-79 | rows present before a batch keep their position, url, id and `first_seen`, and the id sequence never goes back |
| ListingStore.BatchReturnsAppendedIds | src/lib/db.ts:99-106 | the returned ids are exactly the ids of the rows the batch appended, in order |
| ListingStore.BatchIdsIncrease | src/lib/db.ts:98-106 | the returned ids come from the `BIGSERIAL` sequence of line 34 during the batch and are strictly increasing |
| ListingStore.BatchRowsComeFromAttempts | src/lib/db.ts:100-103 | every appended row carries the url of an item of the batch that the database accepted; a failing item stores nothing |
| ListingStore.AcceptedUrlsArePresent | src/lib/db.ts:100-103 | after a batch, the url of every item the database accepted is in the table: accepted items are inserted or merged, and later items never remove a row |
| ListingStore.BatchReturnsExactlyTheNewUrls | src/lib/db.ts:88-107 | the batch appends one row per returned id. Each returned id belongs to a url absent before. A url repeated in the batch yields one id. Every url absent before and present after has its id returned, and every accepted item whose url was absent before gets an appended row whose id is returned |
| ListingStore.AcceptedNewUrlsGetIds | src/lib/db.ts:100-103 | an accepted item whose url was absent before the batch gets an appended row under that url, and that row's id is among the returned ids |
| ListingStore.BatchLength | src/lib/db.ts:98-106 | a batch returns no more ids than it has items |
| ListingStore.FailingAttemptIsSkipped | src/lib/db.ts:100-105 | a rejected item is swallowed: the batch behaves exactly like the batch without it, so later items still run |
| ListingStore.CountListings | src/lib/db.ts:127-130 | `countListings` is the number of rows |
| ListingStore.CountGrowsByReturnedIds | src/lib/db.ts:127-130 | a batch grows the count by exactly the number of ids it returns |
| ListingStore.NewestFirstIsOrdered | src/lib/db.ts:121 | the newest-first order visits each row once, with `first_seen` non-increasing |
| ListingStore.FetchListingsPaged | src/lib/db.ts:109-125 | a negative OFFSET, then a negative LIMIT, is an error. Otherwise the page holds `min(limit, rows - offset)` rows (0 past the end). These are newest-first positions `[offset, offset + limit)`, with `price_text` falling back to `price` and `location` to `address`-else-`location` |
| ListingStore.PageIsNewestFirst | src/lib/db.ts:121 | a page is ordered by `first_seen` descending |
| ListingStore.ConsecutivePagesConcatenate | src/lib/db.ts:121-122 | under the model's fixed order for rows stamped within the same UTC second, two consecutive pages of size `limit` are the page of size `2 * limit`: no row is skipped or repeated |
| ListingStore.FetchListingById | src/lib/db.ts:132-147 | returns nothing exactly when no row has the id, and otherwise that row with the legacy fallbacks |
| ListingStore.UpsertThenFetchById | src/lib/db.ts:132-147 | reading back the id an upsert returns gives the row under the item's url. An inserted row has the item's columns and the statement time. A merged one keeps its original `first_seen` |
| ApifyMapper.FirstTruthy | src/lib/apify.ts:92-96 | reference scan: nothing exactly when no candidate is truthy, else the first truthy candidate |
| ApifyMapper.FirstPresent | src/lib/apify.ts:94 | reference scan: nothing exactly when every candidate is nullish, else the first present candidate |
| ApifyMapper.OrChainIsFirstTruthy | src/lib/apify.ts:92-96 | the chain of `or` fallbacks ending in `''` is the first truthy candidate, or `''` |
| ApifyMapper.TrimmedFirstTruthy | src/lib/apify.ts:92-96 | url, title and location are the trimmed first truthy candidate, or `''` |
| ApifyMapper.Pick | src/lib/apify.ts:98-99 | `pick` gives null for a missing or empty array, else looks only at element 0: the string itself, or the object's `url` |
| ApifyMapper.PriceChainIsFirstPresent | src/lib/apify.ts:94 | `a ?? b ?? c ?? ''` is the first non-nullish candidate, or `''` |
| ApifyMapper.ResolvePrice | src/lib/apify.ts:94-95 | the price is the first present of `priceText`, `price`, `cena`: a number rendered by `String`, text trimmed, `''` when none |
| ApifyMapper.ImageChainIsFirstTruthy | src/lib/apify.ts:100-109 | the image chain of `or` fallbacks, then the `or null` of the returned object, is the first truthy candidate, or null |
| ApifyMapper.ResolveImage | src/lib/apify.ts:100-109 | `image_url` is the first truthy of `pick(images)`, `pick(photos)`, `pick(pictures)`, `image`. It is null when none qualifies and never `''` |
| ApifyMapper.MapToUnified | src/lib/apify.ts:88-112 | the output's `source` is the argument. Each other field is given by its reference scan: url/title/location trimmed first-truthy, price first-present, image first-truthy or null |
| ApifyMapper.BlankFirstUrlBlocksFallback | src/lib/apify.ts:92 | a whitespace-only `url` is selected before trimming, so the result is `''` and does not fall through to `detailUrl` |
| ApifyMapper.PresentPriceTextBlocksFallback | src/lib/apify.ts:94-95 | a present `priceText`, even `''`, wins over `price` and `cena` |
| ApifyMapper.NumericPriceRendersAsNumeral | src/lib/apify.ts:94-95 | with no `priceText`, a numeric `price` is rendered by `String(n)` |
| ApifyMapper.OutputFieldsTrimmed | src/lib/apify.ts:92-96 | url, title and location of the output are trimmed |
| Normalize.Env | src/lib/normalize.ts:5-7 | the variable's value when set and non-empty, otherwise the fallback |
| Normalize.CsvUrls | src/lib/normalize.ts:16 | every piece of `split(',').map(trim).filter(Boolean)` is non-empty, trimmed and comma-free |
| Normalize.UrlList | src/lib/normalize.ts:14-24 | an unset or blank CSV variable gives exactly `[env(single, default)]`. Otherwise the trimmed CSV's pieces. No url is empty |
| Normalize.GetSrealityUrls | src/lib/normalize.ts:10-18 | the same for `SREALITY_URLS` / `SREALITY_URL` and the built-in Sreality default |
| Normalize.GetBezrealitkyUrls | src/lib/normalize.ts:20-24 | the same for `BEZREALITKY_URLS` / `BEZREALITKY_URL` and the built-in Bezrealitky default of line 11 |
| Normalize.CsvRoundTrip | src/lib/normalize.ts:16 | clean urls joined with commas are read back as exactly that list, in order |
| Normalize.UrlListOfCleanCsv | src/lib/normalize.ts:15-16 | a non-blank CSV value with nothing to trim yields its pieces |
| Normalize.SrealityUrlsFromCsv | src/lib/normalize.ts:14-18 | setting `SREALITY_URLS` to a comma-joined list of clean urls makes the getter return that list |
| Normalize.CommasAndBlanksYieldNothing | src/lib/normalize.ts:15-16 | a CSV made only of commas and whitespace yields `[]` |
| Normalize.AbsoluteHref | src/lib/normalize.ts:35-36 | an href starting with `/` (including `//`) gets the site origin prefixed; the Bezrealitky scraper does the same at lines 57-58. Any other href is kept, and the result is `''` only for `''` |
| Normalize.AbsoluteHrefIdempotent | src/lib/normalize.ts:35-36 | making an href absolute twice is the same as once |
| Normalize.FixImage | src/lib/normalize.ts:40-41 | a missing or empty src gives null (also at lines 62-63). A `//` src gets `https:` prefixed. Any other src is kept |
| Normalize.FixImageIdempotent | src/lib/normalize.ts:40-41 | fixing twice is the same as once, and a fixed src never starts with `//` |
| Normalize.ScrapeCards | src/lib/normalize.ts:32-45 | the scraper loop emits at most one listing per card, each with the site's source tag and a non-empty url |
| Normalize.ScrapeCardsMembership | src/lib/normalize.ts:36-42 | a card's record is emitted exactly when its resolved url is non-empty, and everything emitted is some card's record |
| Normalize.ScrapeCardsAppend | src/lib/normalize.ts:32-45 | cards are processed in order: the listings of two runs of cards concatenate |
| Normalize.ScrapeOneCard | src/lib/normalize.ts:33-42 | a single card yields its record when its url is non-empty, else nothing |
| Normalize.FetchSrealityListings | src/lib/normalize.ts:26-46 | every emitted listing is tagged `sreality` and has a url, and there are no more listings than cards |
| Normalize.FetchBezrealitkyListings | src/lib/normalize.ts:48-68 | every emitted listing is tagged `bezrealitky` and has a url, and there are no more listings than cards |
| ScrapeAll.SourceListings | src/app/api/apify/scrape-all/route.ts:17 | a fulfilled source's listings each carry its key and a non-empty url, and are no more numerous than its items |
| ScrapeAll.SourceListingsMembership | src/app/api/apify/scrape-all/route.ts:17 | an item's mapping is kept exactly when its url is non-empty, and every kept listing is some item's mapping |
| ScrapeAll.SourceListingsAppend | src/app/api/apify/scrape-all/route.ts:17 | items are mapped and filtered in order: two runs of items concatenate |
| ScrapeAll.ReasonText | src/app/api/apify/scrape-all/route.ts:37 | a truthy rejection reason is reported as is, and a falsy one as `unknown error` |
| ScrapeAll.Entry | src/app/api/apify/scrape-all/route.ts:26-37 | a fulfilled source gets an ok entry whose `count` is the length of its `listings`. A rejected one gets a failed entry with the reason text and empty `listings` |
| ScrapeAll.EverySourceConfigured | src/app/api/apify/scrape-all/route.ts:6-11 | every source key is configured |
| ScrapeAll.ConfiguredKeysDistinct | src/app/api/apify/scrape-all/route.ts:6-11 | no key is configured twice, so no entry of `bySource` overwrites another |
| ScrapeAll.Assemble | src/app/api/apify/scrape-all/route.ts:22-41 | the loop records each entry under its own key, `bySource` has exactly the configured keys, `total` is the sum of the ok counts and `ok` is true |
| ScrapeAll.ScrapeAllResponse | src/app/api/apify/scrape-all/route.ts:13-42 | the whole route: always `ok: true`, one entry per configured key built from that source's outcome, `total` the sum of fulfilled counts |
| ScrapeAll.CountSumAllFailed | src/app/api/apify/scrape-all/route.ts:23-33 | when every source failed the total is 0 |
| ScrapeAll.CountSumIncludes | src/app/api/apify/scrape-all/route.ts:32 | every successful source's count is part of the total |
| ScrapeAll.FailureRemovesOnlyItsCount | src/app/api/apify/scrape-all/route.ts:25-38 | a source failing instead of succeeding removes exactly its own count from the total |
| ScrapeAll.AllRejectedGivesZeroTotal | src/app/api/apify/scrape-all/route.ts:33-41 | with every actor rejected, every entry is failed with empty listings and the total is 0 |
| ScrapeAll.FulfilledCountInTotal | src/app/api/apify/scrape-all/route.ts:27-32 | a fulfilled source's listing count never exceeds the total |

## Left out

- The Postgres plumbing is left out: `Pool` construction, SSL selection and the DDL of `ensureSchema` (src/lib/db.ts:1-15, 30-52). Only what the DDL guarantees is kept: urls are unique and non-null, ids come from a sequence, and `first_seen` is stamped at insert.
- Concurrency is left out. Each `upsertOne` is one atomic step, and races between concurrent runs are not modelled.
- Timestamp formatting is left out: `first_seen` is a natural number on an abstract clock, not the `to_char` string of src/lib/db.ts:119. That string is not only cosmetic. It is selected under the alias `first_seen`, and PostgreSQL resolves a bare name in `ORDER BY` (src/lib/db.ts:121) to an output column first. So the sort key is the whole-second UTC text, not the `timestamptz` column.
- ListingStore.FetchListingsPaged: the sort key is the whole-second text alias, so every row stamped within the same UTC second is a tie, even when the stamps differ. Rows of one batch usually fall within one second. SQL leaves the order among tied rows unspecified. The model fixes one admissible order, latest insertion first, so it states more than the database guarantees for rows that share a second.
- ListingStore.FetchListingsPaged: only integral `limit` and `offset` are modelled. A fractional JavaScript number is sent as a parameter Postgres rejects, and that database error is not modelled.
- ListingStore.ConsecutivePagesConcatenate: holds for the model's fixed tie order only. Each page is a separate query, and rows stamped within the same UTC second tie under the whole-second sort key. Postgres may order tied rows differently per query, and so skip or repeat one of them across pages. The database guarantees the property only when the stamps of all rows fall in distinct seconds.
- ListingStore.FetchListingById: only an integral id is modelled. A fractional id (for example from `Number('1.5')`) is sent as a `bigint` parameter that Postgres rejects, and that database error is not modelled.
- ListingStore.UpsertListingsReturnNew: returned ids are natural numbers. node-postgres delivers a `BIGSERIAL` (int8) id as a decimal string, and that representation is not modelled.
- ListingStore.FetchListingsPaged: rows carry `id` as a natural number and `price_num` as a real. node-postgres delivers the int8 `id` and the NUMERIC `price_num` as strings, and that representation is not modelled.
- ListingStore.FetchListingById: the same applies to the `id` and `price_num` of the single row it returns.
- ListingStore.BatchReturnsExactlyTheNewUrls: a failed item means the store is unchanged. An error raised after the INSERT committed (for example a lost reply) is swallowed too, leaving a new row whose id is not returned; that case is not modelled.
- ListingStore.UpsertBatch: a rejected statement leaves the modelled store entirely unchanged. Postgres may still have consumed a sequence value, so a gap in later ids is not modelled.
- Which statements the database rejects (constraint or connection errors) is not derived. It is the `fails` input of each batch item.
- JsText.IntToString: only integer prices are modelled. A fractional or very large JavaScript number (exponent form, `NaN`, `Infinity`) is outside the model.
- Record fields with runtime types outside their declared TypeScript types are outside the model. Examples are a `null` image-array element, or a number where a string is declared; `.toString()` would render these.
- Normalize.GetSrealityUrls: the source reads `SREALITY_URL` once, when the module loads (src/lib/normalize.ts:10-11). The model reads it from the same environment at call time.
- Normalize.GetBezrealitkyUrls: the same applies to `BEZREALITKY_URL`.
- The HTTP fetches and the cheerio CSS selection of both scrapers (src/lib/normalize.ts:27-32, 37-40, 49-62) are left out. Each card arrives as the href, texts and image `src` its selectors extracted.
- The Apify network client (`runApifyActor`, `fetchLastDatasetItems`, the token lookup and the 402 fallback, src/lib/apify.ts:22-85) is left out.
- `Promise.allSettled` scheduling is left out. The settled outcomes arrive as an input sequence, one per configured source in order. The `src${i}` key fallback of src/app/api/apify/scrape-all/route.ts:36 therefore never applies.
- ScrapeAll.ReasonText: a rejection reason is modelled as the string `String(reason)` would give, with `None` for a falsy reason (`undefined`, `null`, `false`, `0`, `NaN`, `''`). A truthy object whose string form is empty is not distinguished.
- The other route handlers, the UI components and the configuration files are not part of this model.

=== FILE: apify_mapper.dfy ===
/** `mapToUnified`: turns one record of a scraping actor's dataset, whose
    field names vary by actor, into the unified listing shape. Each output
    field takes the first acceptable candidate from a fixed list. */
module ApifyMapper {
  import opened Wrappers
  import opened Sources
  import opened JsText

  /** A price as the actors deliver it: text or a number. */
  datatype PriceValue = PriceStr(s: string) | PriceNum(n: int)

  /** One element of an image array: a url string or an object with an
      optional `url`. */
  datatype ImageRef = ImageStr(s: string) | ImageObj(url: Option<string>)

  /** A dataset record with its declared fields; `None` is a missing,
      `undefined` or `null` field. */
  datatype ApifyListing = ApifyListing(
    title: Option<string>, name: Option<string>, heading: Option<string>,
    url: Option<string>, detailUrl: Option<string>, link: Option<string>,
    price: Option<PriceValue>, priceText: Option<string>, cena: Option<PriceValue>,
    location: Option<string>, locality: Option<string>, mesto: Option<string>,
    images: Option<seq<ImageRef>>, photos: Option<seq<ImageRef>>, pictures: Option<seq<ImageRef>>,
    image: Option<string>)

  /** The unified record `mapToUnified` returns. */
  datatype Unified = Unified(
    source: Source, title: string, price: string, location: string,
    imageUrl: Option<string>, url: string)

  /** JavaScript truthiness of a string-or-nullish value. */
  predicate Truthy(v: Option<string>) {
    v.Some? && v.value != ""
  }

  /** JavaScript `a || b` on string-or-nullish operands. */
  function Or(a: Option<string>, b: Option<string>): Option<string> {
    if Truthy(a) then a else b
  }

  /** Reference definition: the first truthy candidate, or nothing. */
  function FirstTruthy(cands: seq<Option<string>>): (r: Option<string>)
    ensures r.None? <==> forall i :: 0 <= i < |cands| ==> !Truthy(cands[i])
    ensures r.Some? ==> exists i :: 0 <= i < |cands| && cands[i] == r && Truthy(r)
                          && forall j :: 0 <= j < i ==> !Truthy(cands[j])
    decreases |cands|
  {
    if |cands| == 0 then None
    else if Truthy(cands[0]) then cands[0]
    else FirstTruthy(cands[1..])
  }

  /** Reference definition: the first present candidate, or nothing. */
  function FirstPresent<T>(cands: seq<Option<T>>): (r: Option<T>)
    ensures r.None? <==> forall i :: 0 <= i < |cands| ==> cands[i].None?
    ensures r.Some? ==> exists i :: 0 <= i < |cands| && cands[i] == r
                          && forall j :: 0 <= j < i ==> cands[j].None?
    decreases |cands|
  {
    if |cands| == 0 then None
    else if cands[0].Some? then cands[0]
    else FirstPresent(cands[1..])
  }

  /** JavaScript's `||` chain `a || b || c || ''` selects the first truthy
      candidate, or `''`. */
  lemma OrChainIsFirstTruthy(a: Option<string>, b: Option<string>, c: Option<string>)
    ensures Or(Or(Or(a, b), c), Some("")) == Some(FirstTruthy([a, b, c]).GetOr(""))
  {
    FirstTruthyStep([a, b, c]);
    FirstTruthyStep([b, c]);
    FirstTruthyStep([c]);
    assert [a, b, c][1..] == [b, c] && [b, c][1..] == [c] && [c][1..] == [];
  }

  /** One step of the first-truthy scan. */
  lemma FirstTruthyStep(cands: seq<Option<string>>)
    requires |cands| > 0
    ensures FirstTruthy(cands) == if Truthy(cands[0]) then cands[0] else FirstTruthy(cands[1..])
  {
  }

  /** One step of the first-present scan. */
  lemma FirstPresentStep<T>(cands: seq<Option<T>>)
    requires |cands| > 0
    ensures FirstPresent(cands) == if cands[0].Some? then cands[0] else FirstPresent(cands[1..])
  {
  }

  /** `(a || b || c || '').toString().trim()` for string fields. */
  function TrimmedFirstTruthy(a: Option<string>, b: Option<string>, c: Option<string>): (r: string)
    ensures r == Trim(FirstTruthy([a, b, c]).GetOr(""))
  {
    OrChainIsFirstTruthy(a, b, c);
    Trim(Or(Or(Or(a, b), c), Some("")).value)
  }

  /** The inner `pick`: looks only at element 0 of a non-empty array, and
      returns it when it is a string, else its `url`. */
  function Pick(arr: Option<seq<ImageRef>>): (r: Option<string>)
    ensures arr.None? || |arr.value| == 0 ==> r.None?
    ensures arr.Some? && |arr.value| > 0 ==>
              r == (match arr.value[0] case ImageStr(s) => Some(s) case ImageObj(u) => u)
  {
    match arr
    case None => None
    case Some(xs) =>
      if |xs| == 0 then None
      else match xs[0]
        case ImageStr(s) => Some(s)
        case ImageObj(u) => u
  }

  /** The record's price as text: `String(n)` for a number, the trimmed text
      for a string, `''` when absent. */
  function RenderPrice(p: Option<PriceValue>): string {
    match p
    case None => ""
    case Some(PriceNum(n)) => IntToString(n)
    case Some(PriceStr(s)) => Trim(s)
  }

  function PriceTextValue(t: Option<string>): Option<PriceValue> {
    match t
    case None => None
    case Some(s) => Some(PriceStr(s))
  }

  /** `priceText ?? price ?? cena ?? ''`, then `String(...)` for a number
      and `.toString().trim()` for text. */
  function ResolvePrice(item: ApifyListing): (r: string)
    ensures r == RenderPrice(FirstPresent([PriceTextValue(item.priceText), item.price, item.cena]))
  {
    var priceRaw := Coalesce(Coalesce(Coalesce(PriceTextValue(item.priceText), item.price), item.cena),
                             Some(PriceStr("")));
    PriceChainIsFirstPresent(PriceTextValue(item.priceText), item.price, item.cena);
    match priceRaw.value
    case PriceNum(n) => IntToString(n)
    case PriceStr(s) => Trim(s)
  }

  /** `pick(images) || pick(photos) || pick(pictures) || image`, then
      `image || null`. */
  function ResolveImage(item: ApifyListing): (r: Option<string>)
    ensures r == FirstTruthy([Pick(item.images), Pick(item.photos), Pick(item.pictures), item.image])
    ensures r.Some? ==> r.value != ""
  {
    var image := Or(Or(Or(Pick(item.images), Pick(item.photos)), Pick(item.pictures)), item.image);
    ImageChainIsFirstTruthy(Pick(item.images), Pick(item.photos), Pick(item.pictures), item.image);
    if Truthy(image) then image else None
  }

  /** `mapToUnified(item, source)`. */
  function MapToUnified(item: ApifyListing, source: Source): (r: Unified)
    ensures r.source == source
    ensures r.url == Trim(FirstTruthy([item.url, item.detailUrl, item.link]).GetOr(""))
    ensures r.title == Trim(FirstTruthy([item.title, item.name, item.heading]).GetOr(""))
    ensures r.location == Trim(FirstTruthy([item.location, item.locality, item.mesto]).GetOr(""))
    ensures r.price == RenderPrice(FirstPresent([PriceTextValue(item.priceText), item.price, item.cena]))
    ensures r.imageUrl == FirstTruthy([Pick(item.images), Pick(item.photos), Pick(item.pictures), item.image])
    ensures r.imageUrl.Some? ==> r.imageUrl.value != ""
  {
    Unified(
      source,
      TrimmedFirstTruthy(item.title, item.name, item.heading),
      ResolvePrice(item),
      TrimmedFirstTruthy(item.location, item.locality, item.mesto),
      ResolveImage(item),
      TrimmedFirstTruthy(item.url, item.detailUrl, item.link))
  }

  /** `pick(a) || pick(b) || pick(c) || image`, then `|| null`: the first
      truthy candidate, or null. */
  lemma ImageChainIsFirstTruthy(a: Option<string>, b: Option<string>, c: Option<string>, d: Option<string>)
    ensures var image := Or(Or(Or(a, b), c), d);
            (if Truthy(image) then image else None) == FirstTruthy([a, b, c, d])
  {
    FirstTruthyStep([a, b, c, d]);
    FirstTruthyStep([b, c, d]);
    FirstTruthyStep([c, d]);
    FirstTruthyStep([d]);
    assert [a, b, c, d][1..] == [b, c, d] && [b, c, d][1..] == [c, d] && [c, d][1..] == [d] && [d][1..] == [];
  }

  /** `a ?? b ?? c ?? ''` selects the first present candidate, or `''`. */
  lemma PriceChainIsFirstPresent(a: Option<PriceValue>, b: Option<PriceValue>, c: Option<PriceValue>)
    ensures Coalesce(Coalesce(Coalesce(a, b), c), Some(PriceStr(""))).value
            == FirstPresent([a, b, c]).GetOr(PriceStr(""))
  {
    FirstPresentStep([a, b, c]);
    FirstPresentStep([b, c]);
    FirstPresentStep([c]);
    assert [a, b, c][1..] == [b, c] && [b, c][1..] == [c] && [c][1..] == [];
  }

  /** Selection happens before trimming: a whitespace-only first url
      candidate yields `''` instead of falling through to `detailUrl`. */
  lemma BlankFirstUrlBlocksFallback(item: ApifyListing, source: Source)
    requires item.url.Some? && item.url.value != "" && AllWhitespace(item.url.value)
    ensures MapToUnified(item, source).url == ""
  {
    TrimEmptyIff(item.url.value);
  }

  /** A present `priceText`, even an empty one, wins over `price` and `cena`. */
  lemma PresentPriceTextBlocksFallback(item: ApifyListing, source: Source)
    requires item.priceText.Some?
    ensures MapToUnified(item, source).price == Trim(item.priceText.value)
  {
    FirstPresentStep([PriceTextValue(item.priceText), item.price, item.cena]);
  }

  /** A numeric `price` with no `priceText` is rendered by `String(n)`, a
      decimal numeral that reads back as the number (`IntToStringRoundTrip`). */
  lemma NumericPriceRendersAsNumeral(item: ApifyListing, source: Source, n: int)
    requires item.priceText.None? && item.price == Some(PriceNum(n))
    ensures MapToUnified(item, source).price == IntToString(n)
  {
    var cands := [PriceTextValue(item.priceText), item.price, item.cena];
    FirstPresentStep(cands);
    assert cands[1..] == [item.price, item.cena];
    FirstPresentStep(cands[1..]);
  }

  /** Every string field of the output is already trimmed. */
  lemma OutputFieldsTrimmed(item: ApifyListing, source: Source)
    ensures var r := MapToUnified(item, source);
            IsTrimmed(r.url) && IsTrimmed(r.title) && IsTrimmed(r.location)
  {
  }
}

=== FILE: js_text.dfy ===
/** The JavaScript string operations the scrapers and the mapper rely on:
    `String.prototype.trim`, `startsWith`, `split` on a one-character
    separator, and `String(n)` for an integral number. */
module JsText {

  /** The code points ECMAScript's `trim` strips: the WhiteSpace and
      LineTerminator productions (tab, line tabulation, form feed, space,
      no-break space, byte order mark, every other space separator, and the
      four line terminators). */
  predicate IsWhitespace(c: char) {
    || c == '\t' || c == '\n' || c == '\U{000B}' || c == '\U{000C}' || c == '\r'
    || c == ' ' || c == '\U{00A0}' || c == '\U{1680}'
    || ('\U{2000}' <= c <= '\U{200A}')
    || c == '\U{2028}' || c == '\U{2029}' || c == '\U{202F}' || c == '\U{205F}'
    || c == '\U{3000}' || c == '\U{FEFF}'
  }

  predicate AllWhitespace(s: string) {
    forall i :: 0 <= i < |s| ==> IsWhitespace(s[i])
  }

  /** Neither end of `s` is whitespace: `trim` has nothing to remove. */
  predicate IsTrimmed(s: string) {
    s == [] || (!IsWhitespace(s[0]) && !IsWhitespace(s[|s| - 1]))
  }

  /** `s` with its leading whitespace removed: a suffix of `s`. */
  function TrimStart(s: string): (r: string)
    ensures |r| <= |s| && r == s[|s| - |r|..]
    ensures AllWhitespace(s[..|s| - |r|])
    ensures r == [] || !IsWhitespace(r[0])
    decreases |s|
  {
    if |s| > 0 && IsWhitespace(s[0]) then TrimStart(s[1..]) else s
  }

  /** `s` with its trailing whitespace removed: a prefix of `s`. */
  function TrimEnd(s: string): (r: string)
    ensures |r| <= |s| && r == s[..|r|]
    ensures AllWhitespace(s[|r|..])
    ensures r == [] || !IsWhitespace(r[|r| - 1])
    decreases |s|
  {
    if |s| > 0 && IsWhitespace(s[|s| - 1]) then TrimEnd(s[..|s| - 1]) else s
  }

  /** JavaScript `s.trim()`. */
  function Trim(s: string): (r: string)
    ensures IsTrimmed(r)
    ensures |r| <= |s|
  {
    TrimEnd(TrimStart(s))
  }

  /** A prefix of a suffix is a middle slice. */
  lemma SliceOfSuffix(s: string, i: nat, k: nat)
    requires i + k <= |s|
    ensures s[i..][..k] == s[i..i + k]
    ensures s[i..][k..] == s[i + k..]
  {
  }

  /** Trimming removes only whitespace, and only from the two ends: the
      result is a contiguous slice of the input. */
  lemma TrimIsSlice(s: string)
    ensures exists i :: 0 <= i <= |s| - |Trim(s)| && s[i..i + |Trim(s)|] == Trim(s)
                        && AllWhitespace(s[..i]) && AllWhitespace(s[i + |Trim(s)|..])
  {
    var t := TrimStart(s);
    var i := |s| - |t|;
    var r := TrimEnd(t);
    SliceOfSuffix(s, i, |r|);
    assert r == Trim(s);
  }

  /** `trim` leaves a string with nothing to remove unchanged. */
  lemma TrimOfTrimmed(s: string)
    requires IsTrimmed(s)
    ensures Trim(s) == s
  {
  }

  /** `trim` is idempotent. */
  lemma TrimIdempotent(s: string)
    ensures Trim(Trim(s)) == Trim(s)
  {
    TrimOfTrimmed(Trim(s));
  }

  /** `trim` yields the empty string exactly for whitespace-only strings. */
  lemma TrimEmptyIff(s: string)
    ensures Trim(s) == [] <==> AllWhitespace(s)
  {
  }

  /** JavaScript `s.startsWith(p)`. */
  predicate StartsWith(s: string, p: string) {
    |p| <= |s| && s[..|p|] == p
  }

  /** JavaScript `s.split(sep)` for a one-character separator: the pieces
      between separators, including empty pieces, and `[""]` for `""`. */
  function Split(s: string, sep: char): (parts: seq<string>)
    ensures |parts| >= 1
    ensures forall i :: 0 <= i < |parts| ==> sep !in parts[i]
    decreases |s|
  {
    if |s| == 0 then [""]
    else
      var rest := Split(s[1..], sep);
      if s[0] == sep then [""] + rest
      else [[s[0]] + rest[0]] + rest[1..]
  }

  /** JavaScript `parts.join(sep)` for a non-empty array. */
  function Join(parts: seq<string>, sep: char): string
    requires |parts| >= 1
    decreases |parts|
  {
    if |parts| == 1 then parts[0] else parts[0] + [sep] + Join(parts[1..], sep)
  }

  /** Splitting and re-joining on the same separator gives back the input. */
  lemma {:induction false} JoinSplit(s: string, sep: char)
    ensures Join(Split(s, sep), sep) == s
    decreases |s|
  {
    if |s| > 0 {
      var rest := Split(s[1..], sep);
      JoinSplit(s[1..], sep);
      if s[0] == sep {
        assert Split(s, sep) == [""] + rest;
        assert ([""] + rest)[1..] == rest;
        assert s == [s[0]] + s[1..];
      } else {
        var parts := Split(s, sep);
        assert parts == [[s[0]] + rest[0]] + rest[1..];
        if |rest| == 1 {
          assert parts == [[s[0]] + rest[0]];
        } else {
          assert parts[1..] == rest[1..];
          assert Join(rest, sep) == rest[0] + [sep] + Join(rest[1..], sep);
        }
        assert s == [s[0]] + s[1..];
      }
    }
  }

  /** Joining separator-free pieces and splitting again gives back the pieces. */
  lemma {:induction false} SplitJoin(parts: seq<string>, sep: char)
    requires |parts| >= 1
    requires forall i :: 0 <= i < |parts| ==> sep !in parts[i]
    ensures Split(Join(parts, sep), sep) == parts
    decreases |parts|, |parts[0]|
  {
    var p := parts[0];
    if |parts| == 1 {
      SplitFree(p, sep);
    } else if |p| == 0 {
      var tail := Join(parts[1..], sep);
      assert Join(parts, sep) == [sep] + tail;
      assert ([sep] + tail)[1..] == tail;
      SplitJoin(parts[1..], sep);
      assert parts == [""] + parts[1..];
    } else {
      var shorter := [p[1..]] + parts[1..];
      assert shorter[1..] == parts[1..];
      assert forall i :: 0 <= i < |shorter| ==> sep !in shorter[i] by {
        forall i | 0 <= i < |shorter| ensures sep !in shorter[i] {
          if i == 0 {
            assert forall c :: c in p[1..] ==> c in p;
          } else {
            assert shorter[i] == parts[i];
          }
        }
      }
      SplitJoin(shorter, sep);
      var s := Join(parts, sep);
      assert s == [p[0]] + Join(shorter, sep) by {
        assert p == [p[0]] + p[1..];
      }
      assert s[1..] == Join(shorter, sep);
      assert p[0] in p;
      assert p == [p[0]] + shorter[0];
      assert Split(s, sep) == [[s[0]] + Split(s[1..], sep)[0]] + Split(s[1..], sep)[1..];
      assert parts == [[p[0]] + shorter[0]] + shorter[1..];
    }
  }

  /** A string without the separator splits into itself. */
  lemma {:induction false} SplitFree(s: string, sep: char)
    requires sep !in s
    ensures Split(s, sep) == [s]
    decreases |s|
  {
    if |s| > 0 {
      assert forall c :: c in s[1..] ==> c in s;
      SplitFree(s[1..], sep);
      assert s == [s[0]] + s[1..];
    }
  }

  function DigitChar(d: nat): (c: char)
    requires d < 10
    ensures '0' <= c <= '9'
    ensures c as int - '0' as int == d
  {
    ('0' as int + d) as char
  }

  /** Decimal digits of a natural number, most significant first, without
      leading zeros. */
  function NatToDigits(n: nat): (r: string)
    ensures |r| >= 1
    ensures forall i :: 0 <= i < |r| ==> '0' <= r[i] <= '9'
    ensures r[0] == '0' ==> n == 0
    decreases n
  {
    if n < 10 then [DigitChar(n)] else NatToDigits(n / 10) + [DigitChar(n % 10)]
  }

  /** JavaScript `String(n)` for an integer below 10^21 in magnitude. */
  function IntToString(n: int): (r: string)
    ensures |r| >= 1
    ensures n < 0 <==> r[0] == '-'
  {
    if n < 0 then "-" + NatToDigits(-n) else NatToDigits(n)
  }

  /** Value of a string of decimal digits. */
  function DigitsValue(s: string): nat
    requires forall i :: 0 <= i < |s| ==> '0' <= s[i] <= '9'
    decreases |s|
  {
    if |s| == 0 then 0
    else DigitsValue(s[..|s| - 1]) * 10 + (s[|s| - 1] as int - '0' as int)
  }

  /** Reading back the rendered digits gives the number. */
  lemma {:induction false} DigitsRoundTrip(n: nat)
    ensures DigitsValue(NatToDigits(n)) == n
    decreases n
  {
    if n >= 10 {
      DigitsRoundTrip(n / 10);
      var r := NatToDigits(n);
      assert r[..|r| - 1] == NatToDigits(n / 10);
      assert r[|r| - 1] == DigitChar(n % 10);
    }
  }

  /** A signed decimal numeral's value: an optional minus sign, then digits. */
  function NumeralValue(s: string): int
    requires |s| >= 1
    requires forall i :: (if s[0] == '-' then 1 else 0) <= i < |s| ==> '0' <= s[i] <= '9'
  {
    if s[0] == '-' then 0 - DigitsValue(s[1..]) as int else DigitsValue(s)
  }

  /** `String(n)` is a decimal numeral denoting `n`. */
  lemma IntToStringRoundTrip(n: int)
    ensures var r := IntToString(n);
            (forall i :: (if r[0] == '-' then 1 else 0) <= i < |r| ==> '0' <= r[i] <= '9')
            && NumeralValue(r) == n
  {
    var r := IntToString(n);
    if n < 0 {
      var d := NatToDigits(-n);
      DigitsRoundTrip(-n);
      assert r == "-" + d;
      assert r[1..] == d;
      forall i | 1 <= i < |r| ensures '0' <= r[i] <= '9' {
        assert r[i] == d[i - 1];
      }
    } else {
      DigitsRoundTrip(n);
      assert r == NatToDigits(n);
    }
  }
}

=== FILE: listing_store.dfy ===
/** The `listings` table as an abstract store whose rows are unique by
    `url`, with the insert-or-merge upsert, the batch upsert that reports
    newly inserted ids, and the three readers. */
module ListingStore {
  import opened Wrappers
  import opened Sources

  /** One listing handed to the upsert. `None` is SQL NULL. */
  datatype Item = Item(
    source: Source,
    title: string,
    priceText: Option<string>,
    priceNum: Option<real>,
    address: Option<string>,
    location: Option<string>,
    imageUrl: Option<string>,
    url: string)

  /** One stored row. `price` is the legacy price column; `firstSeen` is the
      insertion timestamp on an abstract, totally ordered clock. */
  datatype Row = Row(
    id: nat,
    source: Source,
    title: string,
    priceText: Option<string>,
    priceNum: Option<real>,
    address: Option<string>,
    location: Option<string>,
    imageUrl: Option<string>,
    url: string,
    price: Option<string>,
    firstSeen: nat)

  /** The table: its rows in insertion order, the next value of the id
      sequence, and the time of the latest statement. */
  datatype Store = Store(rows: seq<Row>, nextId: nat, clock: nat)

  /** What `upsertOne` returns: the row id and whether the row was inserted. */
  datatype Upserted = Upserted(id: nat, inserted: bool)

  /** One statement of a batch: the item, the clock time that passes before
      it runs, and whether the database rejects it. */
  datatype Attempt = Attempt(item: Item, elapsed: nat, fails: bool)

  datatype DbError = NegativeLimit | NegativeOffset

  /** A row as the readers return it. */
  datatype DbListing = DbListing(
    id: nat,
    source: Source,
    title: string,
    priceText: Option<string>,
    priceNum: Option<real>,
    address: Option<string>,
    location: Option<string>,
    imageUrl: Option<string>,
    url: string,
    firstSeen: nat)

  /** What the table's constraints and the upsert keep true: urls are
      unique, ids are distinct and below the sequence's next value, and rows
      are stamped in non-decreasing order no later than the clock. */
  ghost predicate Valid(st: Store) {
    && (forall i, j :: 0 <= i < j < |st.rows| ==>
          && st.rows[i].url != st.rows[j].url
          && st.rows[i].id != st.rows[j].id
          && st.rows[i].firstSeen <= st.rows[j].firstSeen)
    && (forall i :: 0 <= i < |st.rows| ==> st.rows[i].id < st.nextId && st.rows[i].firstSeen <= st.clock)
  }

  /** Some row of the table has this url. */
  ghost predicate HasUrl(st: Store, url: string) {
    exists i :: 0 <= i < |st.rows| && st.rows[i].url == url
  }

  /** A freshly created table: no rows, the id sequence starting at 1. */
  function EmptyStore(): (st: Store)
    ensures Valid(st) && forall u :: !HasUrl(st, u)
  {
    Store([], 1, 0)
  }

  /** Position of the first row with this url. */
  function IndexOfUrl(rows: seq<Row>, url: string): (r: Option<nat>)
    ensures r.Some? ==> r.value < |rows| && rows[r.value].url == url
    ensures r.None? <==> forall i :: 0 <= i < |rows| ==> rows[i].url != url
    decreases |rows|
  {
    if |rows| == 0 then None
    else if rows[0].url == url then Some(0)
    else match IndexOfUrl(rows[1..], url)
      case None => None
      case Some(i) => Some(i + 1)
  }

  /** A row inserted for `it`: every column taken from the item, the legacy
      price column equal to `price_text`. */
  ghost predicate InsertedFrom(it: Item, row: Row) {
    && row.source == it.source && row.title == it.title
    && row.priceText == it.priceText && row.priceNum == it.priceNum
    && row.address == it.address && row.location == it.location
    && row.imageUrl == it.imageUrl && row.url == it.url
    && row.price == it.priceText
  }

  /** The row after a conflicting upsert of `it` onto `prev`: id, url and
      `firstSeen` kept; source and title replaced; every nullable column
      replaced only by a present new value; the legacy price follows a
      present new `price_text` and is kept otherwise. */
  ghost predicate MergedFrom(prev: Row, it: Item, row: Row) {
    && row.id == prev.id && row.url == prev.url && row.firstSeen == prev.firstSeen
    && row.source == it.source && row.title == it.title
    && row.priceText == (if it.priceText.Some? then it.priceText else prev.priceText)
    && row.priceNum == (if it.priceNum.Some? then it.priceNum else prev.priceNum)
    && row.address == (if it.address.Some? then it.address else prev.address)
    && row.location == (if it.location.Some? then it.location else prev.location)
    && row.imageUrl == (if it.imageUrl.Some? then it.imageUrl else prev.imageUrl)
    && row.price == (if it.priceText.Some? then it.priceText else prev.price)
  }

  /** `upsertOne`: insert the item under its url, or merge it into the row
      already there. The id sequence advances in both cases, because the
      proposed row draws its id before the conflict is detected. */
  function UpsertOne(st: Store, it: Item, elapsed: nat): (r: (Store, Upserted))
    requires Valid(st)
    ensures Valid(r.0)
    ensures r.1.inserted <==> !HasUrl(st, it.url)
    ensures r.0.clock == st.clock + elapsed && r.0.nextId == st.nextId + 1
    ensures r.1.inserted ==>
              && |r.0.rows| == |st.rows| + 1 && r.0.rows[..|st.rows|] == st.rows
              && InsertedFrom(it, r.0.rows[|st.rows|])
              && r.0.rows[|st.rows|].id == r.1.id == st.nextId
              && r.0.rows[|st.rows|].firstSeen == r.0.clock
    ensures !r.1.inserted ==>
              && |r.0.rows| == |st.rows|
              && forall i :: 0 <= i < |st.rows| ==>
                   if st.rows[i].url == it.url
                   then MergedFrom(st.rows[i], it, r.0.rows[i]) && r.1.id == st.rows[i].id
                   else r.0.rows[i] == st.rows[i]
  {
    var now := st.clock + elapsed;
    match IndexOfUrl(st.rows, it.url)
    case None =>
      var row := Row(st.nextId, it.source, it.title, it.priceText, it.priceNum, it.address,
                     it.location, it.imageUrl, it.url, it.priceText, now);
      (Store(st.rows + [row], st.nextId + 1, now), Upserted(row.id, true))
    case Some(i) =>
      var prev := st.rows[i];
      // `title` is a non-null string, so COALESCE(EXCLUDED.title, ...) always picks it.
      var row := prev.(
        source := it.source,
        title := it.title,
        priceText := Coalesce(it.priceText, prev.priceText),
        priceNum := Coalesce(it.priceNum, prev.priceNum),
        address := Coalesce(it.address, prev.address),
        location := Coalesce(it.location, prev.location),
        imageUrl := Coalesce(it.imageUrl, prev.imageUrl),
        price := Coalesce(it.priceText, prev.price));
      (Store(st.rows[i := row], st.nextId + 1, now), Upserted(row.id, false))
  }

  /** Upserting the same item twice in a row: the second upsert is an
      update of the same id and leaves every row as the first one left it. */
  lemma RepeatUpsertChangesNoRow(st: Store, it: Item, e1: nat, e2: nat)
    requires Valid(st)
    ensures var (s1, r1) := UpsertOne(st, it, e1);
            var (s2, r2) := UpsertOne(s1, it, e2);
            !r2.inserted && r2.id == r1.id && s2.rows == s1.rows
  {
    var (s1, r1) := UpsertOne(st, it, e1);
    var (s2, r2) := UpsertOne(s1, it, e2);
    var i := IndexOfUrl(s1.rows, it.url).value;
    if r1.inserted {
      assert i == |st.rows|;
    }
    assert !r2.inserted;
    assert s2.rows[i] == s1.rows[i];
  }

  /** Rows written by the upsert keep the legacy `price` column equal to
      `price_text`: a fresh row starts that way and a merge keeps it. */
  lemma UpsertKeepsLegacyPriceInStep(st: Store, it: Item, elapsed: nat)
    requires Valid(st)
    requires forall i :: 0 <= i < |st.rows| && st.rows[i].url == it.url ==> st.rows[i].price == st.rows[i].priceText
    ensures var st' := UpsertOne(st, it, elapsed).0;
            forall i :: 0 <= i < |st'.rows| && st'.rows[i].url == it.url ==> st'.rows[i].price == st'.rows[i].priceText
  {
  }

  /** `upsertListingsReturnNew` as a fold: each attempt that the database
      accepts is upserted, a failing one is skipped, and the ids of the
      insertions are collected in input order. */
  function UpsertBatch(st: Store, attempts: seq<Attempt>): (r: (Store, seq<nat>))
    requires Valid(st)
    ensures Valid(r.0)
    decreases |attempts|
  {
    if |attempts| == 0 then (st, [])
    else if attempts[0].fails then UpsertBatch(st, attempts[1..])
    else
      var (st1, res) := UpsertOne(st, attempts[0].item, attempts[0].elapsed);
      var (st2, ids) := UpsertBatch(st1, attempts[1..]);
      (st2, if res.inserted then [res.id] + ids else ids)
  }

  /** The loop's invariant: the ids collected so far followed by what the
      rest of the batch returns from the current store is what the whole
      batch returns. */
  ghost predicate BatchProgress(st: Store, attempts: seq<Attempt>, cur: Store, ids: seq<nat>, i: nat)
    requires Valid(st) && Valid(cur) && i <= |attempts|
  {
    UpsertBatch(st, attempts) == (UpsertBatch(cur, attempts[i..]).0, ids + UpsertBatch(cur, attempts[i..]).1)
  }

  /** Skipping a failing attempt keeps the loop's invariant. */
  lemma SkipKeepsProgress(st: Store, attempts: seq<Attempt>, cur: Store, ids: seq<nat>, i: nat)
    requires Valid(st) && Valid(cur) && i < |attempts| && attempts[i].fails
    requires BatchProgress(st, attempts, cur, ids, i)
    ensures BatchProgress(st, attempts, cur, ids, i + 1)
  {
    assert attempts[i..][1..] == attempts[i + 1..];
  }

  /** Performing an accepted attempt, and collecting its id when it
      inserted, keeps the loop's invariant. */
  lemma UpsertKeepsProgress(st: Store, attempts: seq<Attempt>, cur: Store, ids: seq<nat>, i: nat)
    requires Valid(st) && Valid(cur) && i < |attempts| && !attempts[i].fails
    requires BatchProgress(st, attempts, cur, ids, i)
    ensures var (next, res) := UpsertOne(cur, attempts[i].item, attempts[i].elapsed);
            BatchProgress(st, attempts, next, if res.inserted then ids + [res.id] else ids, i + 1)
  {
    assert attempts[i..][0] == attempts[i] && attempts[i..][1..] == attempts[i + 1..];
    var (next, res) := UpsertOne(cur, attempts[i].item, attempts[i].elapsed);
    var rest := UpsertBatch(next, attempts[i + 1..]).1;
    assert ids + ([res.id] + rest) == (ids + [res.id]) + rest;
  }

  /** `upsertListingsReturnNew`, written as the source's loop. */
  method UpsertListingsReturnNew(st: Store, attempts: seq<Attempt>) returns (st': Store, ids: seq<nat>)
    requires Valid(st)
    ensures (st', ids) == UpsertBatch(st, attempts)
  {
    if |attempts| == 0 {
      return st, [];
    }
    st', ids := st, [];
    var i := 0;
    assert attempts[0..] == attempts;
    assert [] + UpsertBatch(st, attempts).1 == UpsertBatch(st, attempts).1;
    while i < |attempts|
      invariant 0 <= i <= |attempts|
      invariant Valid(st')
      invariant BatchProgress(st, attempts, st', ids, i)
    {
      var a := attempts[i];
      if a.fails {
        SkipKeepsProgress(st, attempts, st', ids, i);
      } else {
        UpsertKeepsProgress(st, attempts, st', ids, i);
        var (next, res) := UpsertOne(st', a.item, a.elapsed);
        st' := next;
        if res.inserted {
          ids := ids + [res.id];
        }
      }
      i := i + 1;
    }
    assert attempts[i..] == [];
    assert ids + [] == ids;
  }

  /** Rows already present before a batch keep their position, url, id and
      `firstSeen`: neither id nor `first_seen` is in the conflict update's
      SET list, and rows are only ever appended. */
  lemma {:induction false} BatchKeepsExistingRows(st: Store, attempts: seq<Attempt>)
    requires Valid(st)
    ensures var st' := UpsertBatch(st, attempts).0;
            && |st.rows| <= |st'.rows|
            && st.nextId <= st'.nextId
            && (forall i :: 0 <= i < |st.rows| ==>
                  && st'.rows[i].url == st.rows[i].url
                  && st'.rows[i].id == st.rows[i].id
                  && st'.rows[i].firstSeen == st.rows[i].firstSeen)
    decreases |attempts|
  {
    if |attempts| > 0 {
      if attempts[0].fails {
        BatchKeepsExistingRows(st, attempts[1..]);
      } else {
        var st1 := UpsertOne(st, attempts[0].item, attempts[0].elapsed).0;
        BatchKeepsExistingRows(st1, attempts[1..]);
      }
    }
  }

  /** The ids of a run of rows, in order. */
  function IdsOf(rows: seq<Row>): (r: seq<nat>)
    ensures |r| == |rows|
    ensures forall i :: 0 <= i < |rows| ==> r[i] == rows[i].id
    decreases |rows|
  {
    if |rows| == 0 then [] else [rows[0].id] + IdsOf(rows[1..])
  }

  /** The ids a batch returns are exactly the ids of the rows it appended,
      in order. */
  lemma {:induction false} BatchReturnsAppendedIds(st: Store, attempts: seq<Attempt>)
    requires Valid(st)
    ensures var (st', ids) := UpsertBatch(st, attempts);
            |st.rows| <= |st'.rows| && ids == IdsOf(st'.rows[|st.rows|..])
    decreases |attempts|
  {
    if |attempts| == 0 {
      assert st.rows[|st.rows|..] == [];
    } else {
      var rest := attempts[1..];
      if attempts[0].fails {
        BatchReturnsAppendedIds(st, rest);
        assert UpsertBatch(st, attempts) == UpsertBatch(st, rest);
      } else {
        var (st1, res) := UpsertOne(st, attempts[0].item, attempts[0].elapsed);
        BatchReturnsAppendedIds(st1, rest);
        var (st', ids1) := UpsertBatch(st1, rest);
        var n := |st.rows|;
        if res.inserted {
          BatchKeepsExistingRows(st1, rest);
          assert UpsertBatch(st, attempts) == (st', [res.id] + ids1);
          var tail := st'.rows[n..];
          assert tail[0].id == st1.rows[n].id == res.id;
          assert tail[1..] == st'.rows[n + 1..];
        } else {
          assert UpsertBatch(st, attempts) == (st', ids1);
        }
      }
    }
  }

  /** The ids a batch returns are drawn from the id sequence during the
      batch, one per insertion, so they are strictly increasing. */
  lemma {:induction false} BatchIdsIncrease(st: Store, attempts: seq<Attempt>)
    requires Valid(st)
    ensures var (st', ids) := UpsertBatch(st, attempts);
            && (forall k :: 0 <= k < |ids| ==> st.nextId <= ids[k] < st'.nextId)
            && (forall j, k :: 0 <= j < k < |ids| ==> ids[j] < ids[k])
    decreases |attempts|
  {
    if |attempts| > 0 {
      var rest := attempts[1..];
      if attempts[0].fails {
        BatchIdsIncrease(st, rest);
        assert UpsertBatch(st, attempts) == UpsertBatch(st, rest);
      } else {
        var (st1, res) := UpsertOne(st, attempts[0].item, attempts[0].elapsed);
        BatchIdsIncrease(st1, rest);
        BatchKeepsExistingRows(st1, rest);
        var (st', ids1) := UpsertBatch(st1, rest);
        if res.inserted {
          assert UpsertBatch(st, attempts) == (st', [res.id] + ids1);
        } else {
          assert UpsertBatch(st, attempts) == (st', ids1);
        }
      }
    }
  }

  /** Every row a batch appends carries the url of one of its accepted
      attempts: a failing attempt stores nothing. */
  lemma {:induction false} BatchRowsComeFromAttempts(st: Store, attempts: seq<Attempt>)
    requires Valid(st)
    ensures var st' := UpsertBatch(st, attempts).0;
            forall i :: |st.rows| <= i < |st'.rows| ==>
              exists a :: 0 <= a < |attempts| && !attempts[a].fails && attempts[a].item.url == st'.rows[i].url
    decreases |attempts|
  {
    if |attempts| > 0 {
      var rest := attempts[1..];
      var st1 := if attempts[0].fails then st else UpsertOne(st, attempts[0].item, attempts[0].elapsed).0;
      BatchRowsComeFromAttempts(st1, rest);
      BatchKeepsExistingRows(st1, rest);
      var st' := UpsertBatch(st1, rest).0;
      assert st' == UpsertBatch(st, attempts).0;
      forall i | |st.rows| <= i < |st'.rows|
        ensures exists a :: 0 <= a < |attempts| && !attempts[a].fails && attempts[a].item.url == st'.rows[i].url
      {
        if i < |st1.rows| {
          assert !attempts[0].fails;
          assert st'.rows[i].url == st1.rows[i].url == attempts[0].item.url;
        } else {
          var a :| 0 <= a < |rest| && !rest[a].fails && rest[a].item.url == st'.rows[i].url;
          assert attempts[a + 1] == rest[a];
        }
      }
    }
  }

  /** After a batch, the url of every accepted attempt is in the table:
      an accepted item is inserted or merged, and later items never remove
      a row. */
  lemma {:induction false} AcceptedUrlsArePresent(st: Store, attempts: seq<Attempt>)
    requires Valid(st)
    ensures forall a :: 0 <= a < |attempts| && !attempts[a].fails ==>
              HasUrl(UpsertBatch(st, attempts).0, attempts[a].item.url)
    decreases |attempts|
  {
    if |attempts| > 0 {
      var rest := attempts[1..];
      var st1 := if attempts[0].fails then st else UpsertOne(st, attempts[0].item, attempts[0].elapsed).0;
      AcceptedUrlsArePresent(st1, rest);
      BatchKeepsExistingRows(st1, rest);
      var st' := UpsertBatch(st1, rest).0;
      assert st' == UpsertBatch(st, attempts).0;
      forall a | 0 <= a < |attempts| && !attempts[a].fails
        ensures HasUrl(st', attempts[a].item.url)
      {
        if a == 0 {
          var url := attempts[0].item.url;
          var j: nat;
          if HasUrl(st, url) {
            j :| 0 <= j < |st.rows| && st.rows[j].url == url;
          } else {
            j := |st.rows|;
          }
          assert st1.rows[j].url == url;
          assert st'.rows[j].url == url;
        } else {
          assert rest[a - 1] == attempts[a];
        }
      }
    }
  }

  /** Corollaries for the caller: every id the batch returns belongs to a row
      whose url was absent before the batch, no two returned ids share a url
      (a url repeated in the batch yields at most one id), and every url
      absent before and present after the batch has its id returned. */
  lemma BatchReturnsExactlyTheNewUrls(st: Store, attempts: seq<Attempt>)
    requires Valid(st)
    ensures var (st', ids) := UpsertBatch(st, attempts);
            && |ids| <= |attempts|
            && |st'.rows| == |st.rows| + |ids|
            && (forall i :: |st.rows| <= i < |st'.rows| ==> st'.rows[i].id in ids && !HasUrl(st, st'.rows[i].url))
            && (forall i, j :: |st.rows| <= i < j < |st'.rows| ==> st'.rows[i].url != st'.rows[j].url)
            && (forall i :: 0 <= i < |st'.rows| && !HasUrl(st, st'.rows[i].url) ==> st'.rows[i].id in ids)
            && (forall a :: 0 <= a < |attempts| && !attempts[a].fails && !HasUrl(st, attempts[a].item.url) ==>
                  exists i :: |st.rows| <= i < |st'.rows| && st'.rows[i].url == attempts[a].item.url && st'.rows[i].id in ids)
  {
    BatchKeepsExistingRows(st, attempts);
    BatchReturnsAppendedIds(st, attempts);
    BatchLength(st, attempts);
    AcceptedNewUrlsGetIds(st, attempts);
    var (st', ids) := UpsertBatch(st, attempts);
    var n := |st.rows|;
    forall i | n <= i < |st'.rows| ensures st'.rows[i].id in ids && !HasUrl(st, st'.rows[i].url) {
      assert ids[i - n] == st'.rows[i].id;
    }
  }

  /** An accepted attempt whose url was absent before the batch gets an
      appended row under that url, and that row's id is returned. */
  lemma AcceptedNewUrlsGetIds(st: Store, attempts: seq<Attempt>)
    requires Valid(st)
    ensures var (st', ids) := UpsertBatch(st, attempts);
            forall a :: 0 <= a < |attempts| && !attempts[a].fails && !HasUrl(st, attempts[a].item.url) ==>
              exists i :: |st.rows| <= i < |st'.rows| && st'.rows[i].url == attempts[a].item.url && st'.rows[i].id in ids
  {
    BatchKeepsExistingRows(st, attempts);
    BatchReturnsAppendedIds(st, attempts);
    AcceptedUrlsArePresent(st, attempts);
    var (st', ids) := UpsertBatch(st, attempts);
    var n := |st.rows|;
    forall a | 0 <= a < |attempts| && !attempts[a].fails && !HasUrl(st, attempts[a].item.url)
      ensures exists i :: n <= i < |st'.rows| && st'.rows[i].url == attempts[a].item.url && st'.rows[i].id in ids
    {
      var url := attempts[a].item.url;
      forall k | 0 <= k < n ensures st'.rows[k].url != url {
        assert st'.rows[k].url == st.rows[k].url;
      }
      var i :| 0 <= i < |st'.rows| && st'.rows[i].url == url;
      assert ids[i - n] == st'.rows[i].id;
    }
  }

  /** A batch returns at most one id per attempt. */
  lemma {:induction false} BatchLength(st: Store, attempts: seq<Attempt>)
    requires Valid(st)
    ensures |UpsertBatch(st, attempts).1| <= |attempts|
    decreases |attempts|
  {
    if |attempts| > 0 {
      if attempts[0].fails {
        BatchLength(st, attempts[1..]);
      } else {
        BatchLength(UpsertOne(st, attempts[0].item, attempts[0].elapsed).0, attempts[1..]);
      }
    }
  }

  /** A failing attempt is skipped: the batch behaves exactly as the batch
      without it, so it neither changes the store nor stops later items. */
  lemma {:induction false} FailingAttemptIsSkipped(st: Store, attempts: seq<Attempt>, k: nat)
    requires Valid(st)
    requires k < |attempts| && attempts[k].fails
    ensures UpsertBatch(st, attempts) == UpsertBatch(st, attempts[..k] + attempts[k + 1..])
    decreases k
  {
    var without := attempts[..k] + attempts[k + 1..];
    if k == 0 {
      assert without == attempts[1..];
    } else {
      assert without[0] == attempts[0];
      assert without[1..] == attempts[1..][..k - 1] + attempts[1..][k..];
      if attempts[0].fails {
        FailingAttemptIsSkipped(st, attempts[1..], k - 1);
      } else {
        var st1 := UpsertOne(st, attempts[0].item, attempts[0].elapsed).0;
        FailingAttemptIsSkipped(st1, attempts[1..], k - 1);
      }
    }
  }

  /** `countListings`: the number of rows. */
  function CountListings(st: Store): (n: nat)
    ensures n == |st.rows|
  {
    |st.rows|
  }

  /** A batch grows the count by exactly the number of ids it returns. */
  lemma CountGrowsByReturnedIds(st: Store, attempts: seq<Attempt>)
    requires Valid(st)
    ensures var (st', ids) := UpsertBatch(st, attempts);
            CountListings(st') == CountListings(st) + |ids|
  {
    BatchReturnsAppendedIds(st, attempts);
  }

  /** A row as the readers select it: `price_text` falls back to the legacy
      `price` column, `location` is the address when there is one and the
      legacy location otherwise. */
  function View(row: Row): DbListing {
    DbListing(row.id, row.source, row.title, Coalesce(row.priceText, row.price), row.priceNum,
              row.address, Coalesce(row.address, row.location), row.imageUrl, row.url, row.firstSeen)
  }

  /** What a reader reports for a stored row, column by column. */
  ghost predicate ReadsAs(row: Row, v: DbListing) {
    && v.id == row.id && v.source == row.source && v.title == row.title && v.url == row.url
    && v.priceText == (if row.priceText.Some? then row.priceText else row.price)
    && v.priceNum == row.priceNum
    && v.address == row.address
    && v.location == (if row.address.Some? then row.address else row.location)
    && v.imageUrl == row.imageUrl
    && v.firstSeen == row.firstSeen
  }

  /** Position of the row at newest-first position `p`: rows ordered by
      `first_seen` descending, the latest insertion first among rows
      stamped within the same UTC second (the query sorts on the
      whole-second text, so any order of such rows is admissible to the
      database). */
  function NewestFirst(st: Store, p: nat): (i: nat)
    requires p < |st.rows|
    ensures i < |st.rows|
  {
    |st.rows| - 1 - p
  }

  /** The newest-first order visits every row once, `firstSeen`
      non-increasing. */
  lemma NewestFirstIsOrdered(st: Store)
    requires Valid(st)
    ensures forall p, q :: 0 <= p < q < |st.rows| ==>
              && NewestFirst(st, p) != NewestFirst(st, q)
              && st.rows[NewestFirst(st, p)].firstSeen >= st.rows[NewestFirst(st, q)].firstSeen
  {
  }

  function Min(a: int, b: int): int { if a <= b then a else b }

  /** `fetchListingsPaged`: positions `[offset, offset + limit)` of the rows
      ordered by `first_seen` descending. A negative OFFSET or LIMIT is a
      database error, OFFSET being checked first. */
  function FetchListingsPaged(st: Store, limit: int, offset: int): (r: Result<seq<DbListing>, DbError>)
    ensures offset < 0 ==> r == Failure(NegativeOffset)
    ensures offset >= 0 && limit < 0 ==> r == Failure(NegativeLimit)
    ensures offset >= 0 && limit >= 0 ==> r.Success?
    ensures r.Success? ==>
              && |r.value| == (if offset >= |st.rows| then 0 else Min(limit, |st.rows| - offset))
              && (forall k :: 0 <= k < |r.value| ==> ReadsAs(st.rows[NewestFirst(st, offset + k)], r.value[k]))
  {
    if offset < 0 then Failure(NegativeOffset)
    else if limit < 0 then Failure(NegativeLimit)
    else
      var n := if offset >= |st.rows| then 0 else Min(limit, |st.rows| - offset);
      Success(seq(n, k requires 0 <= k < n => View(st.rows[|st.rows| - 1 - (offset + k)])))
  }

  /** A page lists its rows newest first. */
  lemma PageIsNewestFirst(st: Store, limit: int, offset: int)
    requires Valid(st)
    ensures var r := FetchListingsPaged(st, limit, offset);
            r.Success? ==> forall j, k :: 0 <= j < k < |r.value| ==> r.value[j].firstSeen >= r.value[k].firstSeen
  {
    var r := FetchListingsPaged(st, limit, offset);
    if r.Success? {
      forall j, k | 0 <= j < k < |r.value| ensures r.value[j].firstSeen >= r.value[k].firstSeen {
        assert ReadsAs(st.rows[NewestFirst(st, offset + j)], r.value[j]);
        assert ReadsAs(st.rows[NewestFirst(st, offset + k)], r.value[k]);
      }
    }
  }

  /** Two consecutive pages of the same size are the page of twice the size:
      disjoint and contiguous in the newest-first order. */
  lemma ConsecutivePagesConcatenate(st: Store, limit: nat, offset: nat)
    requires Valid(st)
    ensures FetchListingsPaged(st, limit, offset).value + FetchListingsPaged(st, limit, offset + limit).value
            == FetchListingsPaged(st, 2 * limit, offset).value
  {
    var a := FetchListingsPaged(st, limit, offset).value;
    var b := FetchListingsPaged(st, limit, offset + limit).value;
    var c := FetchListingsPaged(st, 2 * limit, offset).value;
    assert |a + b| == |c|;
    forall k | 0 <= k < |c| ensures (a + b)[k] == c[k] {
      if k >= |a| {
        assert ReadsAs(st.rows[NewestFirst(st, offset + limit + (k - |a|))], b[k - |a|]);
      }
    }
  }

  /** First row with this id among `rows[i..]`. */
  function FindById(st: Store, id: int, i: nat): (r: Option<DbListing>)
    requires Valid(st) && i <= |st.rows|
    ensures r.None? <==> forall j :: i <= j < |st.rows| ==> st.rows[j].id != id
    ensures forall j :: i <= j < |st.rows| && st.rows[j].id == id ==> r.Some? && ReadsAs(st.rows[j], r.value)
    decreases |st.rows| - i
  {
    if i == |st.rows| then None
    else if st.rows[i].id == id then Some(View(st.rows[i]))
    else FindById(st, id, i + 1)
  }

  /** `fetchListingById`: the row with that id, or nothing. */
  function FetchListingById(st: Store, id: int): (r: Option<DbListing>)
    requires Valid(st)
    ensures r.None? <==> forall j :: 0 <= j < |st.rows| ==> st.rows[j].id != id
    ensures forall j :: 0 <= j < |st.rows| && st.rows[j].id == id ==> r.Some? && ReadsAs(st.rows[j], r.value)
  {
    FindById(st, id, 0)
  }

  /** An upsert followed by a lookup of the id it returned reads the row back:
      an inserted item comes back with its own columns and the statement's
      time as `firstSeen`; a merged one keeps its original `firstSeen`. */
  lemma UpsertThenFetchById(st: Store, it: Item, elapsed: nat)
    requires Valid(st)
    ensures var (st', res) := UpsertOne(st, it, elapsed);
            var v := FetchListingById(st', res.id);
            && v.Some? && v.value.url == it.url && v.value.source == it.source && v.value.title == it.title
            && (res.inserted ==>
                  && v.value.priceText == it.priceText && v.value.priceNum == it.priceNum
                  && v.value.address == it.address && v.value.imageUrl == it.imageUrl
                  && v.value.location == (if it.address.Some? then it.address else it.location)
                  && v.value.firstSeen == st.clock + elapsed)
            && (!res.inserted ==> exists i :: 0 <= i < |st.rows| && st.rows[i].url == it.url
                                             && v.value.firstSeen == st.rows[i].firstSeen)
  {
    var (st', res) := UpsertOne(st, it, elapsed);
    if res.inserted {
      assert st'.rows[|st.rows|].id == res.id;
    } else {
      var i := IndexOfUrl(st.rows, it.url).value;
      assert st'.rows[i].id == res.id;
    }
  }
}

=== FILE: normalize.dfy ===
/** The string post-processing of the two HTML scrapers: environment
    fallbacks, the comma-separated url lists, absolutising relative hrefs,
    fixing protocol-relative image sources, and emitting a listing only for
    a card with a url. The HTML selection itself is not modelled: each card
    arrives as the href, texts and image source its selectors extracted. */
module Normalize {
  import opened Wrappers
  import opened Sources
  import opened JsText
  import opened Seqs

  /** The process environment. */
  type Environment = map<string, string>

  /** `env(name, fallback)`: the variable's value when it is set and
      non-empty, otherwise the fallback. */
  function Env(env: Environment, name: string, fallback: string): (r: string)
    ensures name in env && env[name] != "" ==> r == env[name]
    ensures name !in env || env[name] == "" ==> r == fallback
    ensures r == "" ==> fallback == ""
  {
    if name in env && |env[name]| > 0 then env[name] else fallback
  }

  const SrealityUrlDefault: string := "https://www.sreality.cz/hledani/prodej/byty"
  const BezrealitkyUrlDefault: string := "https://www.bezrealitky.cz/vypis/nabidka-prodej/byt"

  function TrimAll(parts: seq<string>): (r: seq<string>)
    ensures |r| == |parts|
    ensures forall i :: 0 <= i < |parts| ==> r[i] == Trim(parts[i])
  {
    seq(|parts|, i requires 0 <= i < |parts| => Trim(parts[i]))
  }

  predicate NonEmpty(s: string) {
    s != ""
  }

  /** `csv.split(',').map(s => s.trim()).filter(Boolean)`. */
  function CsvUrls(csv: string): (r: seq<string>)
    ensures forall i :: 0 <= i < |r| ==> r[i] != "" && IsTrimmed(r[i]) && ',' !in r[i]
  {
    var parts := Split(csv, ',');
    var trimmed := TrimAll(parts);
    assert forall i :: 0 <= i < |trimmed| ==> ',' !in trimmed[i] by {
      forall i | 0 <= i < |trimmed| ensures ',' !in trimmed[i] {
        TrimIsSlice(parts[i]);
      }
    }
    Filter(NonEmpty, trimmed)
  }

  /** The url list of one scraper: the non-empty trimmed pieces of the CSV
      variable when it is not blank, else the single-url variable (or its
      built-in default) alone. */
  function UrlList(env: Environment, csvVar: string, singleVar: string, default: string): (r: seq<string>)
    requires default != ""
    ensures csvVar !in env || AllWhitespace(env[csvVar]) ==> r == [Env(env, singleVar, default)]
    ensures csvVar in env && !AllWhitespace(env[csvVar]) ==> r == CsvUrls(Trim(env[csvVar]))
    ensures forall i :: 0 <= i < |r| ==> r[i] != ""
  {
    var csv := if csvVar in env then Some(Trim(env[csvVar])) else None;
    TrimEmptyIff(if csvVar in env then env[csvVar] else "");
    if csv.Some? && csv.value != "" then CsvUrls(csv.value) else [Env(env, singleVar, default)]
  }

  /** `getSrealityUrls()`. */
  function GetSrealityUrls(env: Environment): (r: seq<string>)
    ensures ("SREALITY_URLS" !in env || AllWhitespace(env["SREALITY_URLS"])) ==>
            r == [Env(env, "SREALITY_URL", SrealityUrlDefault)]
    ensures ("SREALITY_URLS" in env && !AllWhitespace(env["SREALITY_URLS"])) ==>
            r == CsvUrls(Trim(env["SREALITY_URLS"]))
    ensures forall i :: 0 <= i < |r| ==> r[i] != ""
  {
    UrlList(env, "SREALITY_URLS", "SREALITY_URL", SrealityUrlDefault)
  }

  /** `getBezrealitkyUrls()`. */
  function GetBezrealitkyUrls(env: Environment): (r: seq<string>)
    ensures ("BEZREALITKY_URLS" !in env || AllWhitespace(env["BEZREALITKY_URLS"])) ==>
            r == [Env(env, "BEZREALITKY_URL", BezrealitkyUrlDefault)]
    ensures ("BEZREALITKY_URLS" in env && !AllWhitespace(env["BEZREALITKY_URLS"])) ==>
            r == CsvUrls(Trim(env["BEZREALITKY_URLS"]))
    ensures forall i :: 0 <= i < |r| ==> r[i] != ""
  {
    UrlList(env, "BEZREALITKY_URLS", "BEZREALITKY_URL", BezrealitkyUrlDefault)
  }

  /** A list of urls each non-empty, trimmed and comma-free, joined with
      commas and read back, is the same list. */
  lemma CsvRoundTrip(urls: seq<string>)
    requires |urls| >= 1
    requires forall i :: 0 <= i < |urls| ==> urls[i] != "" && IsTrimmed(urls[i]) && ',' !in urls[i]
    ensures CsvUrls(Join(urls, ',')) == urls
  {
    SplitJoin(urls, ',');
    forall i | 0 <= i < |urls| ensures Trim(urls[i]) == urls[i] {
      TrimOfTrimmed(urls[i]);
    }
    assert TrimAll(urls) == urls;
    FilterAll(NonEmpty, urls);
  }

  /** Joining non-empty trimmed pieces gives a trimmed, non-blank string. */
  lemma {:induction false} JoinOfTrimmedIsTrimmed(urls: seq<string>)
    requires |urls| >= 1
    requires forall i :: 0 <= i < |urls| ==> urls[i] != "" && IsTrimmed(urls[i])
    ensures var s := Join(urls, ',');
            s != [] && !IsWhitespace(s[0]) && !IsWhitespace(s[|s| - 1])
    decreases |urls|
  {
    if |urls| > 1 {
      JoinOfTrimmedIsTrimmed(urls[1..]);
    }
  }

  /** A CSV variable holding a non-blank value with nothing to trim makes
      the url list that value's pieces. */
  lemma UrlListOfCleanCsv(env: Environment, csvVar: string, singleVar: string, default: string)
    requires default != ""
    requires csvVar in env && env[csvVar] != [] && IsTrimmed(env[csvVar])
    ensures UrlList(env, csvVar, singleVar, default) == CsvUrls(env[csvVar])
  {
    var s := env[csvVar];
    assert !AllWhitespace(s) by {
      assert !IsWhitespace(s[0]);
    }
    TrimOfTrimmed(s);
  }

  /** Setting the CSV variable to a comma-joined list of clean urls makes the
      getter return exactly that list, in order. */
  lemma SrealityUrlsFromCsv(env: Environment, urls: seq<string>)
    requires |urls| >= 1
    requires forall i :: 0 <= i < |urls| ==> urls[i] != "" && IsTrimmed(urls[i]) && ',' !in urls[i]
    requires "SREALITY_URLS" in env && env["SREALITY_URLS"] == Join(urls, ',')
    ensures GetSrealityUrls(env) == urls
  {
    JoinOfTrimmedIsTrimmed(urls);
    UrlListOfCleanCsv(env, "SREALITY_URLS", "SREALITY_URL", SrealityUrlDefault);
    CsvRoundTrip(urls);
  }

  /** Every piece `split` yields is made of characters of the input. */
  lemma {:induction false} SplitPiecesFromInput(s: string, sep: char)
    ensures forall i, j :: 0 <= i < |Split(s, sep)| && 0 <= j < |Split(s, sep)[i]| ==> Split(s, sep)[i][j] in s
    decreases |s|
  {
    if |s| > 0 {
      SplitPiecesFromInput(s[1..], sep);
      var rest := Split(s[1..], sep);
      assert forall c :: c in s[1..] ==> c in s;
      if s[0] != sep {
        var first := [s[0]] + rest[0];
        assert forall j :: 1 <= j < |first| ==> first[j] == rest[0][j - 1];
      }
    }
  }

  /** A CSV made only of commas and blanks yields no urls at all. */
  lemma CommasAndBlanksYieldNothing(csv: string)
    requires forall i :: 0 <= i < |csv| ==> csv[i] == ',' || IsWhitespace(csv[i])
    ensures CsvUrls(csv) == []
  {
    var parts := Split(csv, ',');
    SplitPiecesFromInput(csv, ',');
    forall i | 0 <= i < |parts| ensures !NonEmpty(TrimAll(parts)[i]) {
      forall j | 0 <= j < |parts[i]| ensures IsWhitespace(parts[i][j]) {
        assert parts[i][j] in csv;
        assert parts[i][j] in parts[i];
      }
      TrimEmptyIff(parts[i]);
    }
    FilterNone(NonEmpty, TrimAll(parts));
  }

  /** The two scraped sites. */
  datatype Site = SrealitySite | BezrealitkySite

  function Origin(site: Site): string {
    match site
    case SrealitySite => "https://www.sreality.cz"
    case BezrealitkySite => "https://www.bezrealitky.cz"
  }

  function Tag(site: Site): Source {
    match site
    case SrealitySite => Sreality
    case BezrealitkySite => Bezrealitky
  }

  /** An href starting with `/` is prefixed with the site's origin (this
      includes `//host/...` hrefs); any other href is kept. */
  function AbsoluteHref(site: Site, href: string): (r: string)
    ensures StartsWith(href, "/") ==> r == Origin(site) + href
    ensures !StartsWith(href, "/") ==> r == href
    ensures r == "" <==> href == ""
  {
    if href != "" && StartsWith(href, "/") then Origin(site) + href else href
  }

  /** Absolutising twice is absolutising once. */
  lemma AbsoluteHrefIdempotent(site: Site, href: string)
    ensures AbsoluteHref(site, AbsoluteHref(site, href)) == AbsoluteHref(site, href)
  {
    var r := AbsoluteHref(site, href);
    if StartsWith(href, "/") {
      assert r[0] == Origin(site)[0] == 'h';
    }
  }

  /** `img || null`, then an `https:` prefix for a protocol-relative source. */
  function FixImage(src: Option<string>): (r: Option<string>)
    ensures r.None? <==> src.None? || src.value == ""
    ensures r.Some? && StartsWith(src.value, "//") ==> r.value == "https:" + src.value
    ensures r.Some? && !StartsWith(src.value, "//") ==> r == src
  {
    var img := if src.Some? && src.value != "" then src else None;
    if img.Some? && StartsWith(img.value, "//") then Some("https:" + img.value) else img
  }

  /** Fixing an image source twice is fixing it once, and a fixed source is
      never protocol-relative. */
  lemma FixImageIdempotent(src: Option<string>)
    ensures FixImage(FixImage(src)) == FixImage(src)
    ensures FixImage(src).Some? ==> !StartsWith(FixImage(src).value, "//")
  {
    var r := FixImage(src);
    if r.Some? && StartsWith(src.value, "//") {
      assert r.value[0] == 'h';
    }
  }

  /** What the selectors extracted from one listing card: the first detail
      link's href, the raw texts of the title, price and locality elements
      (empty when none matched), and the first image's `src`. */
  datatype Card = Card(href: Option<string>, titleText: string, priceText: string,
                       locationText: string, imgSrc: Option<string>)

  /** The scrapers' listing record. */
  datatype ScrapedListing = ScrapedListing(source: Source, title: string, price: string,
                                           location: string, imageUrl: Option<string>, url: string)

  /** The url a card resolves to: its href (or `''`), absolutised. */
  function CardUrl(site: Site, c: Card): string {
    AbsoluteHref(site, c.href.GetOr(""))
  }

  /** The record built for a card, whether or not it is emitted. */
  function CardListing(site: Site, c: Card): ScrapedListing {
    ScrapedListing(Tag(site), Trim(c.titleText), Trim(c.priceText), Trim(c.locationText),
                   FixImage(c.imgSrc), CardUrl(site, c))
  }

  predicate Emitted(l: ScrapedListing) {
    l.url != ""
  }

  /** The record builder of one site, as a function value. */
  function RecordOf(site: Site): Card -> ScrapedListing {
    c => CardListing(site, c)
  }

  /** The scraper's loop over the cards: build each card's record and push
      it when its url is non-empty. */
  function ScrapeCards(site: Site, cards: seq<Card>): (r: seq<ScrapedListing>)
    ensures |r| <= |cards|
    ensures forall k :: 0 <= k < |r| ==> r[k].source == Tag(site) && r[k].url != ""
  {
    EmittedCarryTag(site, cards);
    Filter(Emitted, Map(RecordOf(site), cards))
  }

  /** Every emitted record carries the site's tag. */
  lemma EmittedCarryTag(site: Site, cards: seq<Card>)
    ensures var r := Filter(Emitted, Map(RecordOf(site), cards));
            forall k :: 0 <= k < |r| ==> r[k].source == Tag(site)
  {
    forall i | 0 <= i < |cards| ensures RecordOf(site)(cards[i]).source == Tag(site) {
    }
    FilterMapAll(RecordOf(site), Emitted, (l: ScrapedListing) => l.source == Tag(site), cards);
  }

  /** A card's record is emitted exactly when its url is non-empty, and
      everything emitted is the record of some card. */
  lemma ScrapeCardsMembership(site: Site, cards: seq<Card>)
    ensures var r := ScrapeCards(site, cards);
            && (forall i :: 0 <= i < |cards| ==> (CardListing(site, cards[i]) in r <==> CardUrl(site, cards[i]) != ""))
            && (forall k :: 0 <= k < |r| ==> exists i :: 0 <= i < |cards| && r[k] == CardListing(site, cards[i]))
  {
    FilterMapKeeps(RecordOf(site), Emitted, cards);
    FilterMapOrigin(RecordOf(site), Emitted, cards);
  }

  /** The scraper processes cards in order: the listings of two runs of
      cards are the listings of each, concatenated. */
  lemma ScrapeCardsAppend(site: Site, a: seq<Card>, b: seq<Card>)
    ensures ScrapeCards(site, a + b) == ScrapeCards(site, a) + ScrapeCards(site, b)
  {
    MapAppend(RecordOf(site), a, b);
    FilterAppend(Emitted, Map(RecordOf(site), a), Map(RecordOf(site), b));
  }

  /** A single card yields its record exactly when its url is non-empty. */
  lemma ScrapeOneCard(site: Site, c: Card)
    ensures ScrapeCards(site, [c]) == if CardUrl(site, c) != "" then [CardListing(site, c)] else []
  {
    FilterMapSingleton(RecordOf(site), Emitted, c);
  }

  /** `fetchSrealityListings`, after the page is fetched and the cards are
      selected. */
  function FetchSrealityListings(cards: seq<Card>): (r: seq<ScrapedListing>)
    ensures |r| <= |cards|
    ensures forall k :: 0 <= k < |r| ==> r[k].source == Sreality && r[k].url != ""
  {
    ScrapeCards(SrealitySite, cards)
  }

  /** `fetchBezrealitkyListings`, after the page is fetched and the cards are
      selected. */
  function FetchBezrealitkyListings(cards: seq<Card>): (r: seq<ScrapedListing>)
    ensures |r| <= |cards|
    ensures forall k :: 0 <= k < |r| ==> r[k].source == Bezrealitky && r[k].url != ""
  {
    ScrapeCards(BezrealitkySite, cards)
  }
}

=== FILE: scrape_all.dfy ===
/** The scrape-all route: run every configured Apify actor, then fold the
    settled outcomes into one response with a per-source entry and a total. */
module ScrapeAll {
  import opened Wrappers
  import opened Sources
  import opened Seqs
  import opened ApifyMapper

  /** One configured source: its key and the Apify actor that scrapes it. */
  datatype SourceConfig = SourceConfig(key: Source, actor: string)

  /** The configured sources, in the order their actors are started. */
  const SOURCES: seq<SourceConfig> := [
    SourceConfig(Sreality, "peTrGS4Exywwytc5V"),
    SourceConfig(Bezrealitky, "50nuVLm1gX5ER9GGl"),
    SourceConfig(Ulovdomov, "3dfMzh0h3PIBcuPmj"),
    SourceConfig(Idnes, "0dCbYk6Qh3uqJBgOG")
  ]

  /** How one source's actor run settled: with the dataset items it
      returned, or with a rejection reason (`None` for a falsy reason). */
  datatype Outcome = Fulfilled(items: seq<ApifyListing>) | Rejected(reason: Option<string>)

  /** One entry of `bySource`. Both shapes carry `listings`; a failed
      source's is always empty. */
  datatype SourceEntry =
    | Succeeded(count: nat, listings: seq<Unified>)
    | Failed(error: string, listings: seq<Unified>)

  /** The route's JSON body. */
  datatype Response = Response(ok: bool, total: nat, bySource: map<string, SourceEntry>)

  /** The mapper of one source, as a function value. */
  function MapperOf(key: Source): ApifyListing -> Unified {
    it => MapToUnified(it, key)
  }

  /** The route's `.filter(l => l.url)`: a mapped listing is kept only
      when its url is non-empty. */
  predicate UrlNonEmpty(u: Unified) {
    u.url != ""
  }

  /** A fulfilled source's listings: its items mapped to the unified shape,
      in order, keeping only those with a non-empty url. */
  function SourceListings(key: Source, items: seq<ApifyListing>): (r: seq<Unified>)
    ensures |r| <= |items|
    ensures forall k :: 0 <= k < |r| ==> r[k].source == key && r[k].url != ""
  {
    KeptCarrySource(key, items);
    Filter(UrlNonEmpty, Map(MapperOf(key), items))
  }

  /** Every kept listing carries the source's key. */
  lemma KeptCarrySource(key: Source, items: seq<ApifyListing>)
    ensures var r := Filter(UrlNonEmpty, Map(MapperOf(key), items));
            forall k :: 0 <= k < |r| ==> r[k].source == key
  {
    forall i | 0 <= i < |items| ensures MapperOf(key)(items[i]).source == key {
    }
    FilterMapAll(MapperOf(key), UrlNonEmpty, (u: Unified) => u.source == key, items);
  }

  /** An item's mapping is kept exactly when its url is non-empty, and
      every kept listing is the mapping of some item. */
  lemma SourceListingsMembership(key: Source, items: seq<ApifyListing>)
    ensures var r := SourceListings(key, items);
            && (forall i :: 0 <= i < |items| ==> (MapToUnified(items[i], key) in r <==> MapToUnified(items[i], key).url != ""))
            && (forall k :: 0 <= k < |r| ==> exists i :: 0 <= i < |items| && r[k] == MapToUnified(items[i], key))
  {
    FilterMapKeeps(MapperOf(key), UrlNonEmpty, items);
    FilterMapOrigin(MapperOf(key), UrlNonEmpty, items);
  }

  /** Items are processed in order: the listings of two runs of items are
      the listings of each, concatenated. */
  lemma SourceListingsAppend(key: Source, a: seq<ApifyListing>, b: seq<ApifyListing>)
    ensures SourceListings(key, a + b) == SourceListings(key, a) + SourceListings(key, b)
  {
    MapAppend(MapperOf(key), a, b);
    FilterAppend(UrlNonEmpty, Map(MapperOf(key), a), Map(MapperOf(key), b));
  }

  /** `String(reason || 'unknown error')`: a falsy reason is replaced by
      the fixed text. */
  function ReasonText(reason: Option<string>): (r: string)
    ensures r != ""
    ensures (reason.Some? && reason.value != "") ==> r == reason.value
    ensures (reason.None? || reason.value == "") ==> r == "unknown error"
  {
    if reason.Some? && reason.value != "" then reason.value else "unknown error"
  }

  /** The `bySource` entry the route records for one source. */
  function Entry(key: Source, o: Outcome): (e: SourceEntry)
    ensures e.Succeeded? <==> o.Fulfilled?
    ensures e.Succeeded? ==> e.listings == SourceListings(key, o.items) && e.count == |e.listings|
    ensures e.Failed? ==> e.listings == [] && e.error == ReasonText(o.reason)
  {
    match o
    case Fulfilled(items) =>
      var listings := SourceListings(key, items);
      Succeeded(|listings|, listings)
    case Rejected(reason) => Failed(ReasonText(reason), [])
  }

  /** What an entry adds to `total`. */
  function Contribution(e: SourceEntry): nat {
    if e.Succeeded? then e.count else 0
  }

  /** Reference definition of `total`: the counts of the successful
      entries, summed. */
  function CountSum(entries: seq<SourceEntry>): nat
    decreases |entries|
  {
    if |entries| == 0 then 0
    else CountSum(entries[..|entries| - 1]) + Contribution(entries[|entries| - 1])
  }

  /** The entries for the first `|outcomes|` configured sources. */
  function Entries(outcomes: seq<Outcome>): (r: seq<SourceEntry>)
    requires |outcomes| <= |SOURCES|
    ensures |r| == |outcomes|
    ensures forall i :: 0 <= i < |outcomes| ==> r[i] == Entry(SOURCES[i].key, outcomes[i])
  {
    seq(|outcomes|, i requires 0 <= i < |outcomes| => Entry(SOURCES[i].key, outcomes[i]))
  }

  /** The keys `bySource` is indexed by. */
  function KeyOf(i: nat): string
    requires i < |SOURCES|
  {
    Key(SOURCES[i].key)
  }

  /** The keys of all configured sources. */
  function ConfiguredKeys(): set<string> {
    set i | 0 <= i < |SOURCES| :: KeyOf(i)
  }

  /** Every source is configured. */
  lemma EverySourceConfigured(s: Source)
    ensures Key(s) in ConfiguredKeys()
  {
    match s
    case Sreality => assert Key(s) == KeyOf(0);
    case Bezrealitky => assert Key(s) == KeyOf(1);
    case Ulovdomov => assert Key(s) == KeyOf(2);
    case Idnes => assert Key(s) == KeyOf(3);
  }

  /** No source is configured twice, so the configured keys are pairwise
      distinct. */
  lemma ConfiguredKeysDistinct(i: nat, j: nat)
    requires i < j < |SOURCES|
    ensures KeyOf(i) != KeyOf(j)
  {
    if KeyOf(i) == KeyOf(j) {
      KeyInjective(SOURCES[i].key, SOURCES[j].key);
    }
  }

  /** Extending the recorded prefix by one entry adds that entry's
      contribution to the total. */
  lemma CountSumStep(entries: seq<SourceEntry>, i: nat)
    requires i < |entries|
    ensures CountSum(entries[..i + 1]) == CountSum(entries[..i]) + Contribution(entries[i])
  {
    assert entries[..i + 1][..i] == entries[..i];
  }

  /** Recording the next source's entry extends the key set by its key. */
  lemma KeysStep(keys: set<string>, i: nat)
    requires i < |SOURCES|
    requires keys == set j | 0 <= j < i :: KeyOf(j)
    ensures keys + {KeyOf(i)} == set j | 0 <= j < i + 1 :: KeyOf(j)
  {
  }

  /** Recording the next source's entry keeps the entries recorded under
      the earlier keys, since no two configured keys coincide. */
  lemma RecordStep(bySource: map<string, SourceEntry>, entries: seq<SourceEntry>, i: nat)
    requires i < |entries| == |SOURCES|
    requires forall j :: 0 <= j < i ==> KeyOf(j) in bySource && bySource[KeyOf(j)] == entries[j]
    ensures var next := bySource[KeyOf(i) := entries[i]];
            forall j :: 0 <= j < i + 1 ==> KeyOf(j) in next && next[KeyOf(j)] == entries[j]
  {
    forall j | 0 <= j < i ensures KeyOf(j) != KeyOf(i) {
      ConfiguredKeysDistinct(j, i);
    }
  }

  /** The route's loop over the settled results: record each configured
      source's entry under its key and add the successful counts. */
  method Assemble(entries: seq<SourceEntry>) returns (resp: Response)
    requires |entries| == |SOURCES|
    ensures resp.ok && resp.bySource.Keys == ConfiguredKeys() && resp.total == CountSum(entries)
    ensures forall i :: 0 <= i < |SOURCES| ==> resp.bySource[KeyOf(i)] == entries[i]
  {
    var bySource: map<string, SourceEntry> := map[];
    var total: nat := 0;
    var i := 0;
    while i < |entries|
      invariant 0 <= i <= |entries|
      invariant bySource.Keys == set j | 0 <= j < i :: KeyOf(j)
      invariant forall j :: 0 <= j < i ==> KeyOf(j) in bySource && bySource[KeyOf(j)] == entries[j]
      invariant total == CountSum(entries[..i])
    {
      KeysStep(bySource.Keys, i);
      RecordStep(bySource, entries, i);
      CountSumStep(entries, i);
      bySource := bySource[KeyOf(i) := entries[i]];
      if entries[i].Succeeded? {
        total := total + entries[i].count;
      }
      i := i + 1;
    }
    assert entries[..i] == entries;
    resp := Response(true, total, bySource);
  }

  /** The whole route: every source's outcome turned into its entry, then
      assembled into the response. */
  method ScrapeAllResponse(outcomes: seq<Outcome>) returns (resp: Response)
    requires |outcomes| == |SOURCES|
    ensures resp.ok
    ensures resp.bySource.Keys == ConfiguredKeys()
    ensures forall i :: 0 <= i < |SOURCES| ==> resp.bySource[KeyOf(i)] == Entry(SOURCES[i].key, outcomes[i])
    ensures resp.total == CountSum(Entries(outcomes))
  {
    resp := Assemble(Entries(outcomes));
  }

  /** When every source failed the total is 0. */
  lemma {:induction false} CountSumAllFailed(entries: seq<SourceEntry>)
    requires forall i :: 0 <= i < |entries| ==> entries[i].Failed?
    ensures CountSum(entries) == 0
    decreases |entries|
  {
    if |entries| > 0 {
      CountSumAllFailed(entries[..|entries| - 1]);
    }
  }

  /** Partial success: each successful source's count is part of the
      total, whatever happened to the others. */
  lemma {:induction false} CountSumIncludes(entries: seq<SourceEntry>, i: nat)
    requires i < |entries|
    ensures Contribution(entries[i]) <= CountSum(entries)
    decreases |entries|
  {
    if i < |entries| - 1 {
      CountSumIncludes(entries[..|entries| - 1], i);
    }
  }

  /** A source that fails instead of succeeding takes away exactly its own
      count and nothing else. */
  lemma {:induction false} FailureRemovesOnlyItsCount(entries: seq<SourceEntry>, i: nat, error: string)
    requires i < |entries|
    ensures CountSum(entries[i := Failed(error, [])]) + Contribution(entries[i]) == CountSum(entries)
    decreases |entries|
  {
    var failed := entries[i := Failed(error, [])];
    var n := |entries| - 1;
    if i < n {
      assert failed[..n] == entries[..n][i := Failed(error, [])];
      FailureRemovesOnlyItsCount(entries[..n], i, error);
    } else {
      assert failed[..n] == entries[..n];
    }
  }

  /** With every actor rejected, the route still answers `ok: true`, with
      a total of 0 and a failed entry for every source. */
  lemma AllRejectedGivesZeroTotal(outcomes: seq<Outcome>)
    requires |outcomes| == |SOURCES|
    requires forall i :: 0 <= i < |outcomes| ==> outcomes[i].Rejected?
    ensures CountSum(Entries(outcomes)) == 0
    ensures forall i :: 0 <= i < |outcomes| ==> Entries(outcomes)[i].Failed? && Entries(outcomes)[i].listings == []
  {
    CountSumAllFailed(Entries(outcomes));
  }

  /** A fulfilled source's listing count is part of the response total. */
  lemma FulfilledCountInTotal(outcomes: seq<Outcome>, i: nat)
    requires |outcomes| == |SOURCES|
    requires i < |outcomes| && outcomes[i].Fulfilled?
    ensures |SourceListings(SOURCES[i].key, outcomes[i].items)| <= CountSum(Entries(outcomes))
  {
    CountSumIncludes(Entries(outcomes), i);
  }
}

=== FILE: seqs.dfy ===
/** Order-preserving filtering of sequences, shared by the scrapers' emit
    filter and the aggregation route's `.filter((x) => x.url)`. */
module Seqs {

  /** The elements of `xs` that satisfy `p`, in their original order. */
  function Filter<T>(p: T -> bool, xs: seq<T>): (r: seq<T>)
    ensures |r| <= |xs|
    ensures forall i :: 0 <= i < |r| ==> r[i] in xs && p(r[i])
    ensures forall i :: 0 <= i < |xs| && p(xs[i]) ==> xs[i] in r
    decreases |xs|
  {
    if |xs| == 0 then []
    else (if p(xs[0]) then [xs[0]] else []) + Filter(p, xs[1..])
  }

  /** `f` applied to every element, in order. */
  function Map<A, B>(f: A -> B, xs: seq<A>): (r: seq<B>)
    ensures |r| == |xs|
    ensures forall i :: 0 <= i < |xs| ==> r[i] == f(xs[i])
  {
    seq(|xs|, i requires 0 <= i < |xs| => f(xs[i]))
  }

  /** Mapping distributes over concatenation. */
  lemma MapAppend<A, B>(f: A -> B, a: seq<A>, b: seq<A>)
    ensures Map(f, a + b) == Map(f, a) + Map(f, b)
  {
    assert forall i :: 0 <= i < |a + b| ==> Map(f, a + b)[i] == (Map(f, a) + Map(f, b))[i];
  }

  /** Mapping then filtering keeps an element's image exactly when the
      image satisfies `p`. */
  lemma FilterMapKeeps<A, B>(f: A -> B, p: B -> bool, xs: seq<A>)
    ensures var r := Filter(p, Map(f, xs));
            forall i :: 0 <= i < |xs| ==> (f(xs[i]) in r <==> p(f(xs[i])))
  {
    var mapped := Map(f, xs);
    forall i | 0 <= i < |xs| ensures f(xs[i]) in Filter(p, mapped) <==> p(f(xs[i])) {
      assert mapped[i] == f(xs[i]);
    }
  }

  /** Everything mapping then filtering keeps is the image of an element. */
  lemma FilterMapOrigin<A, B>(f: A -> B, p: B -> bool, xs: seq<A>)
    ensures var r := Filter(p, Map(f, xs));
            forall k :: 0 <= k < |r| ==> exists i :: 0 <= i < |xs| && r[k] == f(xs[i])
  {
    var mapped := Map(f, xs);
    var r := Filter(p, mapped);
    forall k | 0 <= k < |r| ensures exists i :: 0 <= i < |xs| && r[k] == f(xs[i]) {
      assert r[k] in mapped;
      var i :| 0 <= i < |mapped| && mapped[i] == r[k];
    }
  }

  /** A property every image has is had by everything mapping then
      filtering keeps. */
  lemma FilterMapAll<A, B>(f: A -> B, p: B -> bool, q: B -> bool, xs: seq<A>)
    requires forall i :: 0 <= i < |xs| ==> q(f(xs[i]))
    ensures var r := Filter(p, Map(f, xs));
            forall k :: 0 <= k < |r| ==> q(r[k])
  {
    FilterMapOrigin(f, p, xs);
  }

  /** Mapping then filtering a single element. */
  lemma FilterMapSingleton<A, B>(f: A -> B, p: B -> bool, x: A)
    ensures Filter(p, Map(f, [x])) == if p(f(x)) then [f(x)] else []
  {
    var mapped := Map(f, [x]);
    assert mapped == [f(x)];
    assert mapped[1..] == [];
  }

  /** Number of elements of `xs` that satisfy `p`. */
  function Count<T>(p: T -> bool, xs: seq<T>): nat
    decreases |xs|
  {
    if |xs| == 0 then 0 else (if p(xs[0]) then 1 else 0) + Count(p, xs[1..])
  }

  /** Filtering distributes over concatenation: filtering keeps the relative
      order of everything it keeps. */
  lemma {:induction false} FilterAppend<T>(p: T -> bool, a: seq<T>, b: seq<T>)
    ensures Filter(p, a + b) == Filter(p, a) + Filter(p, b)
    decreases |a|
  {
    if |a| == 0 {
      assert a + b == b;
    } else {
      assert (a + b)[1..] == a[1..] + b;
      FilterAppend(p, a[1..], b);
    }
  }

  /** The filter keeps exactly the elements that satisfy `p`. */
  lemma {:induction false} FilterLength<T>(p: T -> bool, xs: seq<T>)
    ensures |Filter(p, xs)| == Count(p, xs)
    decreases |xs|
  {
    if |xs| > 0 {
      FilterLength(p, xs[1..]);
    }
  }

  /** When every element satisfies `p`, nothing is dropped. */
  lemma {:induction false} FilterAll<T>(p: T -> bool, xs: seq<T>)
    requires forall i :: 0 <= i < |xs| ==> p(xs[i])
    ensures Filter(p, xs) == xs
    decreases |xs|
  {
    if |xs| > 0 {
      FilterAll(p, xs[1..]);
    }
  }

  /** When no element satisfies `p`, the result is empty. */
  lemma {:induction false} FilterNone<T>(p: T -> bool, xs: seq<T>)
    requires forall i :: 0 <= i < |xs| ==> !p(xs[i])
    ensures Filter(p, xs) == []
    decreases |xs|
  {
    if |xs| > 0 {
      FilterNone(p, xs[1..]);
    }
  }
}

=== FILE: sources.dfy ===
/** The fixed set of listing sources and their string keys. */
module Sources {

  datatype Source = Sreality | Bezrealitky | Ulovdomov | Idnes

  /** The key under which a source is stored in the `source` column and
      reported in `bySource`. */
  function Key(s: Source): (k: string)
    ensures k != ""
  {
    match s
    case Sreality => "sreality"
    case Bezrealitky => "bezrealitky"
    case Ulovdomov => "ulovdomov"
    case Idnes => "idnes"
  }

  /** Distinct sources have distinct keys. */
  lemma KeyInjective(a: Source, b: Source)
    requires Key(a) == Key(b)
    ensures a == b
  {
  }
}

=== FILE: wrappers.dfy ===
/** Optional values and failure-carrying results, plus SQL's COALESCE and
    JavaScript's `??` over optional values. */
module Wrappers {

  /** `None` stands for SQL NULL and for JavaScript `null`/`undefined`. */
  datatype Option<+T> = None | Some(value: T) {

    /** The value, or `default` when absent. */
    function GetOr(default: T): T {
      match this
      case Some(v) => v
      case None => default
    }
  }

  datatype Result<+R, +E> = Success(value: R) | Failure(error: E)

  /** SQL `COALESCE(a, b)` and JavaScript `a ?? b`: the first operand unless it is absent. */
  function Coalesce<T>(a: Option<T>, b: Option<T>): (r: Option<T>)
    ensures a.Some? ==> r == a
    ensures a.None? ==> r == b
  {
    match a
    case Some(_) => a
    case None => b
  }
}
